=== FILE: README.md ===
# Planetary system stepping and potential sampling, in Dafny

This project models the computational core of Planetary-System-Visualization:

- `codes/planet_compute.py`, which has three parts:
  - the per-axis rotation matrices;
  - the `Planet` record: stored orbital parameters, with perihelion, aphelion and the normal of the orbital plane derived from them;
  - the `Planets` system: seven parallel columns, per-body rate bounds, and the step that advances every anomaly angle θ and recomputes every position.
- `compute_grav_pot` in `codes/grav_pot_compute.py`: a clamped gravitational potential sampled at one point.

Every quantity is a Dafny `real`. `sin`, `cos`, `** 0.5` and `** 1.5` are not given values. They are fields of a record `Elementary.Functions` that every operation receives as a parameter. Only the laws the proofs use are assumed about them:

- `Lawful`: sin 0 = 0, cos 0 = 1, square roots are non-negative (and positive on positive arguments), and powers of positive bases are positive.
- `Pythagorean`: sin² + cos² = 1.

Modules follow the program's structure:

- `Wrappers`: `Option` and `Result`.
- `Elementary`: the function record, π and small arithmetic facts.
- `Constants`: the values of the `Constants` class.
- `Geometry`: triples, 3×3 matrices and `get_rotation_matrix`.
- `Orbits`: the `Planet` class.
- `Kinematics`: `calc_curr_pos_vector` as a function of its parameters.
- `PlanetSystem`: the `Planets` class.
- `Potential`: `compute_grav_pot`.

Objects are immutable values. Each method of `Planets` returns the new system.

- Python object identity is an explicit `id` field of `Planet`. `add_planet` tests membership by `id`, never by name.
- `update` before any body was added reads rate bounds that do not exist yet, so it returns `Failure(MissingRateBounds)`.
- `PlanetSystem.Valid` is the invariant every reachable system keeps:
  - the columns are aligned and copy each body's parameters;
  - every current position is the position of its body at its θ;
  - no body appears twice;
  - the rate bounds exist exactly when a body is present, and are those of the current columns.

The gravitational clamp follows the code. A term with |g| > thresh becomes **+thresh**, whatever the sign of g. A term with |g| = thresh becomes 0. Every term shares one distance r: the Frobenius norm of the whole stacked difference matrix, plus 0.01.

## Model

| member | source | states |
|---|---|---|
| Geometry.RotationMatrix | codes/planet_compute.py:13-19 | the three matrices of `get_rotation_matrix`, one per axis; `RotationFixesAxis`, `RotationByZero`, `ApplyRotationX` and `ApplyRotationZ` state what they do |
| Geometry.RotationFixesAxis | codes/planet_compute.py:13-19 | a rotation about x, y or z leaves the unit vector of that axis where it is |
| Geometry.RotationByZero | codes/planet_compute.py:13-19 | a rotation by angle 0 about any axis is the identity |
| Geometry.ApplyRotationZ | codes/planet_compute.py:18-19 | the z-rotation applied to (x, y, z) is (x cos θ − y sin θ, x sin θ + y cos θ, z) |
| Geometry.ApplyRotationX | codes/planet_compute.py:14-15 | the x-rotation applied to (x, y, z) is (x, y cos θ − z sin θ, y sin θ + z cos θ) |
| Geometry.RotationZKeepsHeight | codes/planet_compute.py:18-19 | a rotation about z never changes the z-component |
| Orbits.PerhAph | codes/planet_compute.py:45-47 | perihelion a(1 − e) and aphelion a(1 + e); `PerhAphProperties` states their sum, difference and order |
| Orbits.PerhAphProperties | codes/planet_compute.py:45-47 | perihelion + aphelion = 2a, aphelion − perihelion = 2ae, and for a, e ≥ 0 they enclose a |
| Orbits.PlaneVector | codes/planet_compute.py:49-54 | the plane normal is (sin Ω sin i, −cos Ω sin i, cos i); its z-component is cos i |
| Orbits.PlaneVectorUninclined | codes/planet_compute.py:49-54 | with inclination 0 the plane normal is (0, 0, 1) whatever Ω is |
| Orbits.PlaneVectorUnit | codes/planet_compute.py:49-54 | the plane normal has length 1 |
| Orbits.WithDerived | codes/planet_compute.py:42-43 | after the derived fields are recomputed, perihelion, aphelion and plane normal agree with the stored parameters |
| Orbits.AddOrbitalData | codes/planet_compute.py:28-43 | every non-`None` argument replaces its parameter, converted from AU or degrees; every other parameter, the name and the mass keep their values; the derived fields are recomputed |
| Orbits.AddOrbitalDataNothing | codes/planet_compute.py:28-43 | an update with every argument `None` leaves a consistent body unchanged |
| Orbits.AddOrbitalDataIdempotent | codes/planet_compute.py:28-43 | repeating an update changes nothing more |
| Orbits.NewPlanet | codes/planet_compute.py:21-26 | a new body keeps its name and mass, has consistent derived fields, and is admissible when a > 0 and 0 ≤ e < 1 |
| Orbits.NewPlanetIsFullUpdate | codes/planet_compute.py:21-26 | construction equals `add_orbital_data` with every argument given, whatever the body held before |
| Orbits.PerhAphOfBody | codes/planet_compute.py:45-47 | for a consistent body perh = a(1 − e), aph = a(1 + e), perh + aph = 2a, and perh ≤ aph when a > 0 and e ≥ 0 |
| Orbits.DefaultPlanet | codes/planet_compute.py:22-26 | the default body has perihelion = aphelion = 1 AU and plane normal (0, 0, 1) |
| Kinematics.OrbitRadius | codes/planet_compute.py:75 | the distance a(1 − e cos θ) from the centre; `RadiusBetweenApsides` places it between perihelion and aphelion |
| Kinematics.Direction | codes/planet_compute.py:69-74 | Rz(Ω)·Rx(i)·Rz(θ + ω) applied to the x unit vector; `DirectionClosedForm` multiplies it out and `DirectionInOrbitalPlane` puts it in the orbital plane |
| Kinematics.OrbitPosition | codes/planet_compute.py:69-76 | the direction scaled by the distance; `PositionInOrbitalPlane`, `UninclinedPositionIsFlat` and `ReferencePosition` state where it lies |
| Kinematics.DirectionClosedForm | codes/planet_compute.py:69-74 | Rz(Ω)·Rx(i)·Rz(φ)·eₓ is (cos Ω cos φ − sin Ω cos i sin φ, sin Ω cos φ + cos Ω cos i sin φ, sin i sin φ) |
| Kinematics.DirectionInOrbitalPlane | codes/planet_compute.py:69-74 | the direction of a body is orthogonal to the plane normal of `compute_planet_plane_vector` |
| Kinematics.PositionInOrbitalPlane | codes/planet_compute.py:69-76 | every computed position lies in the body's orbital plane |
| Kinematics.UninclinedPositionIsFlat | codes/planet_compute.py:69-76 | with inclination 0 every position has z = 0, for every θ, ω, Ω, a and e |
| Kinematics.ReferencePosition | codes/planet_compute.py:69-76 | with e = i = Ω = ω = θ = 0 the position is exactly (a, 0, 0) |
| Kinematics.RadiusBetweenApsides | codes/planet_compute.py:75 | the distance a(1 − e cos θ) lies between perihelion and aphelion, and equals a on a circular orbit |
| PlanetSystem.BodyPosition | codes/planet_compute.py:69-76 | a body's position at θ from its own record: `OrbitPosition` of its parameters |
| PlanetSystem.PositionAt | codes/planet_compute.py:69-76 | `calc_curr_pos_vector(k)`: body k's angles with θ, a and e from the columns; `Valid` requires every stored position to be this one |
| PlanetSystem.NewPlanets | codes/planet_compute.py:58-67 | a new system has no bodies, no rate bounds, aligned columns, and the given step and central mass |
| PlanetSystem.NewPlanetsValid | codes/planet_compute.py:58-67 | a new system with a positive central mass satisfies the system invariant |
| PlanetSystem.Period | codes/planet_compute.py:98 | the period 2π / sqrt(G·M) · a^1.5 is positive |
| PlanetSystem.ArealRate | codes/planet_compute.py:99 | the areal rate (π·dt/2)·√(1 − e²)/P; `ArealRateSign` gives its sign |
| PlanetSystem.ArealRateSign | codes/planet_compute.py:99 | the areal rate has the sign of the time step |
| PlanetSystem.DthMin | codes/planet_compute.py:100 | the areal rate over (1 − e)²; `RatesShareArealRate`, `RatesOrdered` and `EccentricRatesDiffer` relate it to `dth_max` |
| PlanetSystem.DthMax | codes/planet_compute.py:101 | the areal rate over (1 + e)²; `RatesShareArealRate`, `RatesOrdered` and `EccentricRatesDiffer` relate it to `dth_min` |
| PlanetSystem.ComputeRates | codes/planet_compute.py:98-101 | the rate columns have one entry per body, each bound is that body's `dth_min`/`dth_max`, and every period is positive |
| PlanetSystem.CircularRatesEqual | codes/planet_compute.py:100-101 | with e = 0, `dth_min` = `dth_max` |
| PlanetSystem.RatesOrdered | codes/planet_compute.py:100-101 | for 0 ≤ e < 1 and dt ≥ 0, 0 ≤ `dth_max` ≤ `dth_min`, and `dth_max` > 0 when dt > 0 |
| PlanetSystem.RatesShareArealRate | codes/planet_compute.py:99-101 | `dth_min`·(1 − e)² and `dth_max`·(1 + e)² both equal the areal rate |
| PlanetSystem.EccentricRatesDiffer | codes/planet_compute.py:99-101 | for 0 < e < 1 and dt > 0, 0 < `dth_max` < `dth_min` |
| PlanetSystem.FirstBody | codes/planet_compute.py:80-87 | the empty-system branch: every column becomes a one-entry column of the body's values, aligned |
| PlanetSystem.AppendBody | codes/planet_compute.py:88-96 | the other branch: one more body, and columns that were aligned stay aligned, so every column grows by exactly one entry |
| PlanetSystem.Placed | codes/planet_compute.py:80-96 | the two-branch placement of a body; `PlacedAppendsOnce` states that a present body is not added again and any other is appended once |
| PlanetSystem.WithRates | codes/planet_compute.py:98-101 | the rate bounds recomputed from the current columns; nothing else changes |
| PlanetSystem.FirstBodyIsAppend | codes/planet_compute.py:80-96 | on an empty system the empty-system branch builds the same columns as appending |
| PlanetSystem.PlacedAppendsOnce | codes/planet_compute.py:80-96 | a body already present leaves the columns as they are; any other body is appended once, through either branch |
| PlanetSystem.AppendKeepsPrefix | codes/planet_compute.py:89-96 | appending keeps every earlier entry of all seven columns |
| PlanetSystem.AppendDistinct | codes/planet_compute.py:89-90 | appending a body that is not present keeps the bodies distinct |
| PlanetSystem.AppendPositions | codes/planet_compute.py:96 | after appending, every current position is its body's position at its θ |
| PlanetSystem.AppendValid | codes/planet_compute.py:89-101 | appending a new admissible body and recomputing the rates keeps the system invariant |
| PlanetSystem.AddPlanet | codes/planet_compute.py:78-101 | keeps the invariant. `None`, or a body already present by identity, leaves the system unchanged. A new body grows each column by one entry (its `init_theta`, a, e, perh, aph and position) and keeps the earlier entries |
| PlanetSystem.AddPlanetIdempotent | codes/planet_compute.py:78-101 | after `add_planet(p)` the body is present, and a second `add_planet(p)` changes nothing |
| PlanetSystem.ThetaStepAsWritten | codes/planet_compute.py:107 | the step of `update_theta` as written; the `StepAsWritten…` lemmas below state its values and where it stalls |
| PlanetSystem.StepAsWrittenFirstTurn | codes/planet_compute.py:107 | for 0 ≤ θ ≤ 2π the step lies between `dth_max` and `dth_min` |
| PlanetSystem.StepAsWrittenEnds | codes/planet_compute.py:107 | the step is `dth_min` at θ = π and `dth_max` at θ = 0 and θ = 2π |
| PlanetSystem.StepAsWrittenBelowMaxAfterTurn | codes/planet_compute.py:107 | for an eccentric orbit, past θ = 2π the step as written is below `dth_max` |
| PlanetSystem.StepAsWrittenTowardsStall | codes/planet_compute.py:107 | past θ = π the step as written is ((`dth_min` − `dth_max`)/π)·(θ* − θ), with θ* = π + π·`dth_min`/(`dth_min` − `dth_max`) |
| PlanetSystem.StepAsWrittenBackwards | codes/planet_compute.py:107 | for 0 < `dth_max` < `dth_min` and θ < 2π − θ*, the step as written is negative: a body started there runs backwards |
| PlanetSystem.StepAsWrittenStalls | codes/planet_compute.py:107 | for 0 < `dth_max` < `dth_min`, θ* lies past 2π and the step there is 0 |
| PlanetSystem.StepAsWrittenTrapped | codes/planet_compute.py:107-109 | when `dth_min` − `dth_max` ≤ π: between 2π and θ*, a step as written moves θ forward but not past θ* |
| PlanetSystem.IterateAsWrittenNeverPassesStall | codes/planet_compute.py:106-109 | when `dth_min` − `dth_max` ≤ π: once θ is in [2π, θ*], any number of updates as written leave it at or below θ* |
| PlanetSystem.UpdateAsWrittenStalls | codes/planet_compute.py:98-109 | for every 0 < e < 1 and dt > 0, the body's own bounds give a stall angle past 2π where the step as written is 0 |
| PlanetSystem.EccentricityPointTwoStalls | codes/planet_compute.py:98-109 | with e = 0.2, the step as written is 0 at θ = 2.8π, while the corrected step there is at least `dth_max` > 0 |
| PlanetSystem.WrapAngle | codes/planet_compute.py:107 | the reduced angle lies in [0, 2π) |
| PlanetSystem.WrapAngleFirstTurn | codes/planet_compute.py:107 | an angle already in [0, 2π) is left as it is |
| PlanetSystem.WrapAnglePeriodic | codes/planet_compute.py:107 | θ and θ + 2π reduce to the same angle |
| PlanetSystem.ThetaStep | codes/planet_compute.py:107 | the corrected step: the same interpolation on θ reduced to its first turn; `ThetaStepBounded`, `ThetaStepAgreesOnFirstTurn` and `ThetaStepPeriodic` state its properties |
| PlanetSystem.ThetaStepBounded | codes/planet_compute.py:107 | the corrected step lies between `dth_max` and `dth_min` at every θ |
| PlanetSystem.ThetaStepAgreesOnFirstTurn | codes/planet_compute.py:107 | on [0, 2π) the corrected step equals the step as written |
| PlanetSystem.ThetaStepPeriodic | codes/planet_compute.py:107 | the corrected step repeats every revolution |
| PlanetSystem.CircularStepUniform | codes/planet_compute.py:107 | with equal bounds both steps are that bound at every θ |
| PlanetSystem.ThetaStepAdvances | codes/planet_compute.py:98-107 | with dt > 0 the corrected step is at least `dth_max` > 0 at every θ |
| PlanetSystem.IterateAdvances | codes/planet_compute.py:106-109 | n corrected updates advance θ by at least n·`dth_max` |
| PlanetSystem.NextThetaAsWritten | codes/planet_compute.py:106-109 | every θ advanced by the step as written, one entry per body |
| PlanetSystem.NextTheta | codes/planet_compute.py:106-109 | every θ advanced by the corrected step, one entry per body |
| PlanetSystem.SteppedAsWritten | codes/planet_compute.py:106-114 | the relation between a system and the system after `update` as written: every θ moved by the step as written, every position recomputed at the new θ, nothing else changed |
| PlanetSystem.Stepped | codes/planet_compute.py:106-114 | the same relation with the corrected step |
| PlanetSystem.RecomputePositions | codes/planet_compute.py:103-104 | the loop of `update`: one position per body, each body's position at its θ |
| PlanetSystem.UpdateAsWritten | codes/planet_compute.py:103-114 | `update` as written. Fails exactly when no rate bounds exist. Otherwise: every θ moves by the step as written, every position is recomputed at the new θ, nothing else changes, and the invariant holds |
| PlanetSystem.Update | codes/planet_compute.py:103-114 | the same as `UpdateAsWritten`, with the corrected step |
| PlanetSystem.UpdatesAgreeOnFirstTurn | codes/planet_compute.py:103-114 | while every θ is in [0, 2π), the corrected update and the update as written give the same system |
| PlanetSystem.SteppedAsWrittenFrozenAtStall | codes/planet_compute.py:98-114 | under the update as written, an eccentric body at its stall angle keeps its θ and its position, with dt > 0 |
| PlanetSystem.SteppedAdvances | codes/planet_compute.py:106-114 | with dt > 0, one corrected update moves every body's θ strictly forward |
| PlanetSystem.SteppedAsWrittenAdvancesOnFirstTurn | codes/planet_compute.py:98-114 | with dt > 0, one update as written moves forward every body whose θ is in [0, 2π]; past that, `StepAsWrittenStalls` and `StepAsWrittenBackwards` show it may not |
| PlanetSystem.SteppedAgreesOnFirstTurn | codes/planet_compute.py:106-114 | for a body with θ in [0, 2π) the corrected update moves θ exactly as the source's update does |
| PlanetSystem.CircularBodyUniformStep | codes/planet_compute.py:98-114 | a body with e = 0 advances by the same `dth_min` at every update, as written or corrected, whatever its θ |
| PlanetSystem.CurrentPositionInPlane | codes/planet_compute.py:69-76 | the stored current position of a body whose derived fields are consistent with its angles (`Orbits.Consistent`, which `add_orbital_data` establishes) lies in its orbital plane |
| PlanetSystem.AuPositions | codes/planet_compute.py:119-121 | one position per body, each divided by `AU_DIST`; `ToAuInverse` states that scaling back recovers it |
| PlanetSystem.ToAuInverse | codes/planet_compute.py:119-121 | a position converted to AU, multiplied by `AU_DIST`, is the position again |
| PlanetSystem.NamedPositions | codes/planet_compute.py:122 | the name-to-position dictionary; `NamedPositionsKeys` and `NamedPositionsLastWins` state its keys and values |
| PlanetSystem.NamedPositionsKeys | codes/planet_compute.py:122 | the dictionary's keys are exactly the names of the bodies |
| PlanetSystem.NamedPositionsLastWins | codes/planet_compute.py:122 | each name maps to the position of the last body carrying it |
| PlanetSystem.BuildNamedPositions | codes/planet_compute.py:122 | the comprehension, built body by body, is the name-to-position dictionary |
| PlanetSystem.Names | codes/planet_compute.py:122 | the names of the bodies, one per body |
| PlanetSystem.UpdateAndFetchPosAsWritten | codes/planet_compute.py:116-122 | always steps first with the update as written, whatever `update` says. Fails exactly when `update` fails. Otherwise returns the stepped system, and the positions in AU keyed by body name |
| PlanetSystem.UpdateAndFetchPos | codes/planet_compute.py:116-122 | the same as `UpdateAndFetchPosAsWritten`, with the corrected update |
| Potential.Sources | codes/grav_pot_compute.py:8-12 | the sources are the current positions followed by the origin, one more than the bodies, in both branches |
| Potential.Masses | codes/grav_pot_compute.py:14-15 | the masses are the body masses followed by `MASS_SUN`, one more than the bodies |
| Potential.SumSq | codes/grav_pot_compute.py:13 | the sum of the squared entries of the difference matrix, never negative |
| Potential.Distance | codes/grav_pot_compute.py:13 | the shared distance is at least 0.01, so no term divides by zero |
| Potential.Term | codes/grav_pot_compute.py:16 | the unclamped term −G·m/r; `TermNonPositive` gives its sign |
| Potential.TermNonPositive | codes/grav_pot_compute.py:16 | an unclamped term −G·m/r is ≤ 0 for m ≥ 0 |
| Potential.Clamp | codes/grav_pot_compute.py:17-18 | a term with \|g\| > thresh becomes thresh, with \|g\| < thresh stays g, and with \|g\| = thresh becomes 0 |
| Potential.ClampBounded | codes/grav_pot_compute.py:17-18 | for thresh ≥ 0 a clamped term has magnitude at most thresh |
| Potential.ClampFlipsSign | codes/grav_pot_compute.py:17-18 | a term below −thresh is clamped to +thresh |
| Potential.ClampTwice | codes/grav_pot_compute.py:17-18 | clamping a clamped term again sends it to 0 |
| Potential.ClampedTerms | codes/grav_pot_compute.py:16-18 | one clamped term per source, each at the one shared distance |
| Potential.Sum | codes/grav_pot_compute.py:19 | `np.sum`; `SumBounded` and `ClampedSumBounded` bound it |
| Potential.SumBounded | codes/grav_pot_compute.py:19 | a sum of terms each at most b in magnitude is at most (count)·b in magnitude |
| Potential.ClampedSumBounded | codes/grav_pot_compute.py:17-19 | the sum of the clamped terms is at most (count)·thresh in magnitude |
| Potential.GravPot | codes/grav_pot_compute.py:6-19 | for thresh ≥ 0 the potential is at most (n + 1)·thresh in magnitude, for n bodies |
| Potential.SumSqOrigin | codes/grav_pot_compute.py:13 | with the origin as the only source, the squared norm is the squared length of the query point |
| Potential.EmptySystemPotential | codes/grav_pot_compute.py:6-19 | with no bodies the result is the clamp of −G·`MASS_SUN`/(‖pos·`AU_DIST`‖ + 0.01) |
| Potential.CenterMassUnused | codes/grav_pot_compute.py:14-16 | the system's `center_mass` does not change the result |
| Potential.NothingClampedBelowThreshold | codes/grav_pot_compute.py:16-19 | when every term is below the threshold in magnitude, the result is the plain sum of the terms |

## Left out

- `codes/visualize.py` (the Mayavi/TraitsUI interface) and the `PlanetData` tables of `codes/planets_data.py`. They are not part of the computation; only the `Constants` values are modelled.
- Numeric values of sin, cos, square root and power, and floating-point rounding. The model works over exact reals, with only the laws listed above.
- Rotation matrices preserving length is not proved. It is not needed for any stated property.
- The `print` in `update_theta`, and keeping `dtheta` as an attribute after the step. Its value, the step that advances θ, is modelled. The `__main__` blocks of both files.
- The unknown-axis fall-through of `get_rotation_matrix`, which returns `None`. The axis is a three-valued type.
- The non-AU branch of `update_and_fetch_pos`, which raises `NameError` because `conv_factor` is never bound. `UpdateAndFetchPos` requires `units == "AU"`.
- numpy array shapes: positions are real triples and columns are sequences.
- `pos *= AU_DIST` in `compute_grav_pot` scales the caller's array in place. The model returns a value and leaves the caller's point unchanged. An integer array would make numpy refuse the in-place float multiplication; that is not modelled either.
- Aliasing: a `Planet` object changed by `add_orbital_data` after it was added to a system is not modelled. Bodies in the model are values.
- Rate bounds for a ≤ 0, e = 1 or a non-positive central mass. For a ≤ 0 or e = 1 the numpy column arithmetic gives `nan` or `inf`. `G*center_mass` is Python float arithmetic: a central mass of 0 raises `ZeroDivisionError`, and a negative one makes `** 0.5` a complex number. The model requires admissible orbits and a positive central mass.
- `PlanetSystem.AddPlanet`: requires the offered body to have a > 0 and 0 ≤ e < 1. The source accepts any body. For a ≤ 0 or e = 1 its rate formulas give `nan` or `inf`. For e > 1 or e < −1 the square root of 1 − e² is `nan`. At e = −1 the square root is 0, and `dth_max` multiplies it by 1/0², which is `nan`. For −1 < e < 0 the rates are finite; excluding negative eccentricity is a modelling choice, since an orbit's eccentricity is never negative.
- `None` passed as a constructor argument of `Planet`, which leaves an attribute unset. `NewPlanet` takes reals.
- `Orbits.PerhAph`: carries no contract of its own. Its properties are stated by `Orbits.PerhAphProperties`.
- `PlanetSystem.Update`: uses the corrected θ step (see Findings). `PlanetSystem.UpdateAsWritten` is the source's own step; `PlanetSystem.UpdatesAgreeOnFirstTurn` states that the two agree while every θ is in [0, 2π).
- `PlanetSystem.UpdateAndFetchPos`: steps with the corrected θ step, so its positions differ from the source's once some θ leaves [0, 2π). `PlanetSystem.UpdateAndFetchPosAsWritten` steps as the source does.

## Findings

| source | as written | input that shows it | evidently intended | confidence | as-written member | corrected member |
|---|---|---|---|---|---|---|
| codes/planet_compute.py:107 | the step `dth_min + ((dth_max - dth_min)/π)·\|π − θ\|` uses θ as it stands. θ only grows and is never reduced to one turn, so past 2π the step keeps shrinking and reaches 0 at θ* = π + π·`dth_min`/(`dth_min` − `dth_max`) | any dt > 0 and e = 0.2 (Mercury): the step as written is 0 at θ = 2.8π ≈ 8.80 rad. When `dth_min` − `dth_max` ≤ π (below 0.2 for Mercury at a ten-day step), θ never passes 2.8π once past 2π, and a body at 2.8π no longer moves | the same interpolation repeated every revolution: θ reduced into [0, 2π) before the step, so that every body keeps revolving | high (proved on the model; not executed) | PlanetSystem.EccentricityPointTwoStalls, PlanetSystem.UpdateAsWritten | PlanetSystem.ThetaStep, PlanetSystem.Update |

=== FILE: constants.dfy ===
/** The physical constants of the `Constants` class, in SI units. */
module Constants {
  import opened Elementary

  /** Gravitational constant. */
  const G: real := 0.0000000000667

  /** One astronomical unit, in metres. */
  const AuDist: real := 149600000000.0

  const DegToRad: real := Pi / 180.0

  const DayToSec: real := 86400.0

  const MassSun: real := 1990000000000000000000000000000.0
}

=== FILE: elementary.dfy ===
/** The floating-point library functions the source calls (`np.sin`, `np.cos`,
    `** 0.5` and `** 1.5`) are not modelled by their values.  They are passed to
    every operation as a record of functions, and only the few laws a proof needs
    are assumed of them, through `Lawful`. */
module Elementary {

  /** The value of `np.pi`. */
  const Pi: real := 3.141592653589793

  /** `pow(x, y)` stands for `x ** y`; `sqrt(x)` for `x ** 0.5`. */
  datatype Functions = Functions(
    sin: real -> real,
    cos: real -> real,
    sqrt: real -> real,
    pow: (real, real) -> real)

  function Sin(f: Functions, x: real): real { f.sin(x) }
  function Cos(f: Functions, x: real): real { f.cos(x) }
  function Sqrt(f: Functions, x: real): real { f.sqrt(x) }
  function Pow(f: Functions, x: real, y: real): real { f.pow(x, y) }

  /** The laws the model relies on, and nothing about their numeric values. */
  ghost predicate Lawful(f: Functions) {
    && Sin(f, 0.0) == 0.0
    && Cos(f, 0.0) == 1.0
    && (forall x :: Sqrt(f, x) >= 0.0)
    && (forall x :: x > 0.0 ==> Sqrt(f, x) > 0.0)
    && (forall x, y :: x > 0.0 ==> Pow(f, x, y) > 0.0)
  }

  /** sin²x + cos²x = 1, assumed only by the lemmas about lengths and
      orthogonality. */
  ghost predicate Pythagorean(f: Functions) {
    forall x :: Sin(f, x) * Sin(f, x) + Cos(f, x) * Cos(f, x) == 1.0
  }

  /** `x ** 2`. */
  function Square(x: real): (r: real)
    ensures r >= 0.0
  {
    SquareSign(x);
    x * x
  }

  lemma SquarePositive(x: real)
    requires x != 0.0
    ensures Square(x) > 0.0
  {
    SquareSign(x);
    calc {
      Square(x);
    ==
      x * x;
    >
      0.0;
    }
  }

  lemma SquareSign(x: real)
    ensures x * x >= 0.0
    ensures x != 0.0 ==> x * x > 0.0
  {
    if x > 0.0 {
      MulPositive(x, x);
    } else if x < 0.0 {
      MulPositive(-x, -x);
      assert (-x) * (-x) == x * x;
    }
  }

  /** `np.abs` on one real. */
  function Abs(x: real): (r: real)
    ensures r >= 0.0
    ensures r == x || r == -x
  {
    if x < 0.0 then -x else x
  }

  // Small facts of real arithmetic, kept apart so that the solver meets them
  // without the surrounding model.

  lemma MulNonNegative(a: real, b: real)
    requires a >= 0.0 && b >= 0.0
    ensures a * b >= 0.0
  {
  }

  lemma MulPositive(a: real, b: real)
    requires a > 0.0 && b > 0.0
    ensures a * b > 0.0
  {
  }

  lemma MulMonotone(a: real, x: real, y: real)
    requires a >= 0.0 && x <= y
    ensures a * x <= a * y
  {
  }

  lemma MulStrictMonotone(a: real, x: real, y: real)
    requires a > 0.0 && x < y
    ensures a * x < a * y
  {
  }

  lemma QuotientAboveOne(x: real, d: real)
    requires 0.0 < d < x
    ensures x / d > 1.0
  {
    assert (x / d) * d == x;
    if x / d <= 1.0 {
      MulMonotone(d, x / d, 1.0);
    }
  }

  lemma CancelReciprocal(x: real, d: real)
    requires d != 0.0
    ensures x * (1.0 / d) * d == x
  {
    assert (1.0 / d) * d == 1.0;
    assert x * (1.0 / d) * d == x * ((1.0 / d) * d);
  }

  lemma AbsTriangle(x: real, y: real)
    ensures Abs(x + y) <= Abs(x) + Abs(y)
  {
  }

  lemma MulSuccessor(n: real, m: real, b: real)
    requires m == n + 1.0
    ensures n * b + b == m * b
  {
  }

  lemma MulNonNegative3(a: real, b: real, c: real)
    requires a >= 0.0 && b >= 0.0 && c >= 0.0
    ensures a * b * c >= 0.0
  {
    MulNonNegative(a, b);
    MulNonNegative(a * b, c);
  }

  lemma MulPositive3(a: real, b: real, c: real)
    requires a > 0.0 && b > 0.0 && c > 0.0
    ensures a * b * c > 0.0
  {
    MulPositive(a, b);
    MulPositive(a * b, c);
  }

  lemma ReciprocalAntitone(lo: real, hi: real)
    requires 0.0 < lo <= hi
    ensures 0.0 < 1.0 / hi <= 1.0 / lo
  {
  }

  lemma ReciprocalStrictlyAntitone(lo: real, hi: real)
    requires 0.0 < lo < hi
    ensures 0.0 < 1.0 / hi < 1.0 / lo
  {
  }

  lemma UnitCircleBound(s: real, c: real)
    requires s * s + c * c == 1.0
    ensures -1.0 <= c <= 1.0
  {
  }
}

=== FILE: geometry.dfy ===
/** Real triples and 3×3 matrices, and the per-axis rotation matrices of
    `get_rotation_matrix`. */
module Geometry {
  import opened Elementary

  datatype Vec3 = Vec3(x: real, y: real, z: real)

  /** A matrix stored by rows. */
  datatype Mat3 = Mat3(row0: Vec3, row1: Vec3, row2: Vec3)

  /** The axis tag of `get_rotation_matrix`; the source's fall-through for an
      unknown tag cannot be written with this type. */
  datatype Axis = X | Y | Z

  const Origin: Vec3 := Vec3(0.0, 0.0, 0.0)
  const UnitX: Vec3 := Vec3(1.0, 0.0, 0.0)
  const UnitY: Vec3 := Vec3(0.0, 1.0, 0.0)
  const UnitZ: Vec3 := Vec3(0.0, 0.0, 1.0)

  function Dot(u: Vec3, v: Vec3): real {
    u.x * v.x + u.y * v.y + u.z * v.z
  }

  function Sub(u: Vec3, v: Vec3): Vec3 {
    Vec3(u.x - v.x, u.y - v.y, u.z - v.z)
  }

  function Scale(v: Vec3, k: real): Vec3 {
    Vec3(v.x * k, v.y * k, v.z * k)
  }

  /** The squared Euclidean length. */
  function NormSq(v: Vec3): (r: real)
    ensures r >= 0.0
  {
    assert v.x * v.x >= 0.0 && v.y * v.y >= 0.0 && v.z * v.z >= 0.0;
    Dot(v, v)
  }

  /** Matrix-vector product (`np.matmul` of a 3×3 matrix and a 3-vector). */
  function Apply(m: Mat3, v: Vec3): Vec3 {
    Vec3(Dot(m.row0, v), Dot(m.row1, v), Dot(m.row2, v))
  }

  /** The unit vector along an axis. */
  function AxisVector(axis: Axis): Vec3 {
    match axis
    case X => UnitX
    case Y => UnitY
    case Z => UnitZ
  }

  /** The matrix of a rotation by `theta` about `axis`. */
  function RotationMatrix(f: Functions, theta: real, axis: Axis): Mat3 {
    var c := Cos(f, theta);
    var s := Sin(f, theta);
    match axis
    case X => Mat3(Vec3(1.0, 0.0, 0.0), Vec3(0.0, c, -s), Vec3(0.0, s, c))
    case Y => Mat3(Vec3(c, 0.0, s), Vec3(0.0, 1.0, 0.0), Vec3(-s, 0.0, c))
    case Z => Mat3(Vec3(c, -s, 0.0), Vec3(s, c, 0.0), Vec3(0.0, 0.0, 1.0))
  }

  /** A rotation leaves the vector along its own axis where it is. */
  lemma RotationFixesAxis(f: Functions, theta: real, axis: Axis)
    ensures Apply(RotationMatrix(f, theta, axis), AxisVector(axis)) == AxisVector(axis)
  {
  }

  /** A rotation by angle 0 is the identity. */
  lemma RotationByZero(f: Functions, axis: Axis, v: Vec3)
    requires Lawful(f)
    ensures Apply(RotationMatrix(f, 0.0, axis), v) == v
  {
    assert Cos(f, 0.0) == 1.0 && Sin(f, 0.0) == 0.0;
  }

  /** A rotation about z, written out on a vector given by its components. */
  lemma ApplyRotationZ(f: Functions, theta: real, x: real, y: real, z: real)
    ensures Apply(RotationMatrix(f, theta, Z), Vec3(x, y, z))
         == Vec3(Cos(f, theta) * x - Sin(f, theta) * y, Sin(f, theta) * x + Cos(f, theta) * y, z)
  {
  }

  /** A rotation about x, written out on a vector given by its components. */
  lemma ApplyRotationX(f: Functions, theta: real, x: real, y: real, z: real)
    ensures Apply(RotationMatrix(f, theta, X), Vec3(x, y, z))
         == Vec3(x, Cos(f, theta) * y - Sin(f, theta) * z, Sin(f, theta) * y + Cos(f, theta) * z)
  {
  }

  lemma ScaleUnitX(k: real)
    ensures Scale(UnitX, k) == Vec3(k, 0.0, 0.0)
  {
  }

  /** A rotation about z never changes the z-component. */
  lemma RotationZKeepsHeight(f: Functions, theta: real, v: Vec3)
    ensures Apply(RotationMatrix(f, theta, Z), v).z == v.z
  {
  }
}

=== FILE: grav_pot.dfy ===
/** `compute_grav_pot`: a clamped gravitational potential sampled at one query
    point, from every body of a planetary system and the sun at the origin. */
module Potential {
  import opened Elementary
  import opened Constants
  import opened Geometry
  import opened PlanetSystem

  /** The attracting points: the current body positions, then the origin.
      An empty system (a position array of shape (0,)) has the origin only. */
  function Sources(s: Planets): (src: seq<Vec3>)
    ensures |src| == |s.currPos| + 1
    ensures src[|s.currPos|] == Origin
    ensures forall k :: 0 <= k < |s.currPos| ==> src[k] == s.currPos[k]
  {
    if |s.currPos| == 0 then [Origin] else s.currPos + [Origin]
  }

  /** The attracting masses: each body's mass, then `MASS_SUN`.  The system's
      own `center_mass` plays no part. */
  function Masses(s: Planets): (m: seq<real>)
    ensures |m| == |s.planets| + 1
    ensures m[|s.planets|] == MassSun
    ensures forall k :: 0 <= k < |s.planets| ==> m[k] == s.planets[k].mass
  {
    seq(|s.planets|, k requires 0 <= k < |s.planets| => s.planets[k].mass) + [MassSun]
  }

  /** The sum of the squared entries of the difference matrix
      `pos - source_pos_arr` (the query point minus every source). */
  function SumSq(pos: Vec3, src: seq<Vec3>): (r: real)
    ensures r >= 0.0
  {
    if |src| == 0 then 0.0
    else SumSq(pos, src[..|src| - 1]) + NormSq(Sub(pos, src[|src| - 1]))
  }

  /** The one scalar distance shared by every term: the Frobenius norm of the
      whole difference matrix, plus 0.01. */
  function Distance(f: Functions, pos: Vec3, src: seq<Vec3>): (r: real)
    requires Lawful(f)
    ensures r >= 0.01
  {
    Sqrt(f, SumSq(pos, src)) + 0.01
  }

  /** The unclamped term -G·m / r of one source. */
  function Term(m: real, r: real): real
    requires r != 0.0
  {
    -G * m / r
  }

  /** An unclamped term is never positive for a non-negative mass. */
  lemma TermNonPositive(m: real, r: real)
    requires m >= 0.0 && r > 0.0
    ensures Term(m, r) <= 0.0
  {
    MulNonNegative(G, m);
  }

  /** `(|g| > thresh)*thresh + (|g| < thresh)*g`. */
  function Clamp(g: real, thresh: real): (c: real)
    ensures Abs(g) > thresh ==> c == thresh
    ensures Abs(g) < thresh ==> c == g
    ensures Abs(g) == thresh ==> c == 0.0
  {
    (if Abs(g) > thresh then thresh else 0.0) + (if Abs(g) < thresh then g else 0.0)
  }

  /** For a non-negative threshold a clamped term never exceeds it in
      magnitude. */
  lemma ClampBounded(g: real, thresh: real)
    requires thresh >= 0.0
    ensures Abs(Clamp(g, thresh)) <= thresh
  {
  }

  /** A strongly negative term is clamped to +thresh: the clamp does not keep
      the sign of the term. */
  lemma ClampFlipsSign(g: real, thresh: real)
    requires g < -thresh && thresh > 0.0
    ensures Clamp(g, thresh) == thresh > 0.0
  {
  }

  /** Clamping a clamped term is not the identity: a term clamped to thresh
      sits exactly at the threshold and is then sent to 0. */
  lemma ClampTwice(g: real, thresh: real)
    requires Abs(g) > thresh >= 0.0
    ensures Clamp(Clamp(g, thresh), thresh) == 0.0
  {
  }

  /** The terms of every source at the shared distance, each clamped. */
  function ClampedTerms(masses: seq<real>, r: real, thresh: real): (c: seq<real>)
    requires r != 0.0
    ensures |c| == |masses|
    ensures forall k :: 0 <= k < |masses| ==> c[k] == Clamp(Term(masses[k], r), thresh)
  {
    seq(|masses|, k requires 0 <= k < |masses| => Clamp(Term(masses[k], r), thresh))
  }

  /** `np.sum`. */
  function Sum(xs: seq<real>): real {
    if |xs| == 0 then 0.0 else Sum(xs[..|xs| - 1]) + xs[|xs| - 1]
  }

  /** A sum of terms each at most `bound` in magnitude is at most
      `|xs|·bound` in magnitude. */
  lemma {:induction false} SumBounded(xs: seq<real>, bound: real)
    requires forall k :: 0 <= k < |xs| ==> Abs(xs[k]) <= bound
    ensures Abs(Sum(xs)) <= |xs| as real * bound
  {
    if |xs| > 0 {
      var init, last := xs[..|xs| - 1], xs[|xs| - 1];
      assert forall k :: 0 <= k < |init| ==> init[k] == xs[k];
      SumBounded(init, bound);
      assert Abs(last) <= bound;
      AbsTriangle(Sum(init), last);
      MulSuccessor(|init| as real, |xs| as real, bound);
      calc {
        Abs(Sum(xs));
        Abs(Sum(init) + last);
      <= Abs(Sum(init)) + Abs(last);
      <= |init| as real * bound + bound;
        |xs| as real * bound;
      }
    }
  }

  /** A sum of clamped terms is at most (number of terms)·thresh in
      magnitude. */
  lemma ClampedSumBounded(masses: seq<real>, r: real, thresh: real)
    requires r != 0.0
    ensures thresh >= 0.0 ==> Abs(Sum(ClampedTerms(masses, r, thresh))) <= |masses| as real * thresh
  {
    if thresh >= 0.0 {
      var terms := ClampedTerms(masses, r, thresh);
      forall k | 0 <= k < |terms|
        ensures Abs(terms[k]) <= thresh
      {
        ClampBounded(Term(masses[k], r), thresh);
      }
      SumBounded(terms, thresh);
    }
  }

  /** `compute_grav_pot(pos, planets, thresh)`: the query point (in AU) is
      scaled to metres, every source contributes -G·m/r at the one shared
      distance r, each term is clamped, and the terms are summed.  The
      system is only read.  For a non-negative threshold the result is at
      most (n + 1)·thresh in magnitude. */
  function GravPot(f: Functions, pos: Vec3, s: Planets, thresh: real := 100.0): (v: real)
    requires Lawful(f)
    ensures thresh >= 0.0 ==> Abs(v) <= (|s.planets| + 1) as real * thresh
  {
    var q := Scale(pos, AuDist);
    var r := Distance(f, q, Sources(s));
    ClampedSumBounded(Masses(s), r, thresh);
    Sum(ClampedTerms(Masses(s), r, thresh))
  }

  /** The squared distance to the origin alone is the squared length. */
  lemma SumSqOrigin(pos: Vec3)
    ensures SumSq(pos, [Origin]) == NormSq(pos)
  {
    assert [Origin][..0] == [];
    assert Sub(pos, Origin) == pos;
  }

  /** With no bodies only the sun at the origin contributes: the result is
      the clamp of -G·MASS_SUN / (‖pos·AU_DIST‖ + 0.01). */
  lemma EmptySystemPotential(f: Functions, pos: Vec3, s: Planets, thresh: real)
    requires Lawful(f) && |s.planets| == 0 && |s.currPos| == 0
    ensures GravPot(f, pos, s, thresh)
         == Clamp(Term(MassSun, Sqrt(f, NormSq(Scale(pos, AuDist))) + 0.01), thresh)
  {
    var q := Scale(pos, AuDist);
    assert Sources(s) == [Origin];
    SumSqOrigin(q);
    var r := Distance(f, q, Sources(s));
    assert r == Sqrt(f, NormSq(q)) + 0.01;
    var terms := ClampedTerms(Masses(s), r, thresh);
    assert |terms| == 1 && terms[0] == Clamp(Term(MassSun, r), thresh);
    assert terms[..0] == [];
    assert Sum(terms) == terms[0];
  }

  /** The system's `center_mass` does not enter the potential. */
  lemma CenterMassUnused(f: Functions, pos: Vec3, s: Planets, thresh: real, m: real)
    requires Lawful(f)
    ensures GravPot(f, pos, s.(centerMass := m), thresh) == GravPot(f, pos, s, thresh)
  {
    assert Sources(s.(centerMass := m)) == Sources(s);
    assert Masses(s.(centerMass := m)) == Masses(s);
  }

  /** When no term reaches the threshold, nothing is clamped and the result
      is the plain sum of the terms. */
  lemma NothingClampedBelowThreshold(masses: seq<real>, r: real, thresh: real)
    requires r != 0.0
    requires forall k :: 0 <= k < |masses| ==> Abs(Term(masses[k], r)) < thresh
    ensures Sum(ClampedTerms(masses, r, thresh))
         == Sum(seq(|masses|, k requires 0 <= k < |masses| => Term(masses[k], r)))
  {
    var c := ClampedTerms(masses, r, thresh);
    var u := seq(|masses|, k requires 0 <= k < |masses| => Term(masses[k], r));
    assert c == u;
  }
}

=== FILE: kinematics.dfy ===
/** The geometry of `calc_curr_pos_vector`: where a body with given orbital
    angles, semi-major axis and eccentricity is at anomaly θ. */
module Kinematics {
  import opened Elementary
  import opened Geometry
  import opened Orbits

  /** a(1 - e cos θ), the distance the source uses for anomaly θ. */
  function OrbitRadius(f: Functions, semMajAx: real, ecc: real, theta: real): real {
    semMajAx * (1.0 - ecc * Cos(f, theta))
  }

  /** Rz(Ω)·Rx(i)·Rz(φ)·eₓ: the unit direction towards the body. */
  function Direction(f: Functions, phi: real, inclination: real, nodeAngle: real): Vec3 {
    Apply(RotationMatrix(f, nodeAngle, Z),
          Apply(RotationMatrix(f, inclination, X),
                Apply(RotationMatrix(f, phi, Z), UnitX)))
  }

  /** The position at anomaly θ: the direction for φ = θ + ω, scaled by the
      orbit radius. */
  function OrbitPosition(
    f: Functions, theta: real, majorAxisAngle: real, inclination: real,
    nodeAngle: real, semMajAx: real, ecc: real): Vec3
  {
    Scale(Direction(f, theta + majorAxisAngle, inclination, nodeAngle),
          OrbitRadius(f, semMajAx, ecc, theta))
  }

  /** Rz(Ω)·Rx(i)·Rz(φ)·eₓ multiplied out, in terms of the cosines and sines
      of φ, i and Ω. */
  function ClosedDirection(cp: real, sp: real, ci: real, si: real, co: real, so: real): Vec3 {
    Vec3(co * cp - so * (ci * sp), so * cp + co * (ci * sp), si * sp)
  }

  /** The first rotation turns eₓ to (cos φ, sin φ, 0). */
  lemma InPlaneDirection(f: Functions, phi: real)
    ensures Apply(RotationMatrix(f, phi, Z), UnitX) == Vec3(Cos(f, phi), Sin(f, phi), 0.0)
  {
    ApplyRotationZ(f, phi, 1.0, 0.0, 0.0);
  }

  /** The rotation about x tilts that vector out of the reference plane. */
  lemma InclinedDirection(f: Functions, phi: real, inclination: real)
    ensures Apply(RotationMatrix(f, inclination, X), Vec3(Cos(f, phi), Sin(f, phi), 0.0))
         == Vec3(Cos(f, phi), Cos(f, inclination) * Sin(f, phi), Sin(f, inclination) * Sin(f, phi))
  {
    ApplyRotationX(f, inclination, Cos(f, phi), Sin(f, phi), 0.0);
  }

  lemma DirectionBeforeNode(f: Functions, phi: real, inclination: real, nodeAngle: real)
    ensures Direction(f, phi, inclination, nodeAngle)
         == Apply(RotationMatrix(f, nodeAngle, Z),
                  Vec3(Cos(f, phi), Cos(f, inclination) * Sin(f, phi), Sin(f, inclination) * Sin(f, phi)))
  {
    InPlaneDirection(f, phi);
    InclinedDirection(f, phi, inclination);
  }

  lemma NodeRotationClosed(f: Functions, nodeAngle: real, cp: real, sp: real, ci: real, si: real)
    ensures Apply(RotationMatrix(f, nodeAngle, Z), Vec3(cp, ci * sp, si * sp))
         == ClosedDirection(cp, sp, ci, si, Cos(f, nodeAngle), Sin(f, nodeAngle))
  {
    ApplyRotationZ(f, nodeAngle, cp, ci * sp, si * sp);
  }

  /** The three rotation matrices of `calc_curr_pos_vector`, multiplied out. */
  lemma DirectionClosedForm(f: Functions, phi: real, inclination: real, nodeAngle: real)
    ensures Direction(f, phi, inclination, nodeAngle)
         == ClosedDirection(Cos(f, phi), Sin(f, phi), Cos(f, inclination), Sin(f, inclination),
                            Cos(f, nodeAngle), Sin(f, nodeAngle))
  {
    DirectionBeforeNode(f, phi, inclination, nodeAngle);
    NodeRotationClosed(f, nodeAngle, Cos(f, phi), Sin(f, phi), Cos(f, inclination), Sin(f, inclination));
  }

  /** The multiplied-out direction is orthogonal to (sin Ω sin i, -cos Ω sin i, cos i). */
  lemma ClosedDirectionInPlane(cp: real, sp: real, ci: real, si: real, co: real, so: real)
    requires so * so + co * co == 1.0
    ensures Dot(ClosedDirection(cp, sp, ci, si, co, so), Vec3(so * si, -(co * si), ci)) == 0.0
  {
    var t := ci * sp * si;
    var a := (co * cp - so * (ci * sp)) * (so * si);
    var b := (so * cp + co * (ci * sp)) * (-(co * si));
    assert a == co * cp * so * si - (so * so) * t;
    assert b == -(so * cp * co * si) - (co * co) * t;
    assert a + b == -((so * so + co * co) * t);
    assert (so * so + co * co) * t == t;
  }

  lemma PlaneVectorComponents(f: Functions, inclination: real, nodeAngle: real)
    ensures PlaneVector(f, inclination, nodeAngle)
         == Vec3(Sin(f, nodeAngle) * Sin(f, inclination), -(Cos(f, nodeAngle) * Sin(f, inclination)), Cos(f, inclination))
  {
  }

  /** The direction towards the body is orthogonal to the plane vector the
      body stores. */
  lemma DirectionInOrbitalPlane(f: Functions, phi: real, inclination: real, nodeAngle: real)
    requires Pythagorean(f)
    ensures Dot(Direction(f, phi, inclination, nodeAngle), PlaneVector(f, inclination, nodeAngle)) == 0.0
  {
    DirectionClosedForm(f, phi, inclination, nodeAngle);
    PlaneVectorComponents(f, inclination, nodeAngle);
    ClosedDirectionInPlane(Cos(f, phi), Sin(f, phi), Cos(f, inclination), Sin(f, inclination),
                           Cos(f, nodeAngle), Sin(f, nodeAngle));
  }

  lemma DotScale(w: Vec3, k: real, n: Vec3)
    ensures Dot(Scale(w, k), n) == k * Dot(w, n)
  {
  }

  /** Every computed position lies in the body's orbital plane: it is
      orthogonal to the plane vector `compute_planet_plane_vector` stores. */
  lemma PositionInOrbitalPlane(
    f: Functions, theta: real, majorAxisAngle: real, inclination: real,
    nodeAngle: real, semMajAx: real, ecc: real)
    requires Pythagorean(f)
    ensures Dot(OrbitPosition(f, theta, majorAxisAngle, inclination, nodeAngle, semMajAx, ecc),
                PlaneVector(f, inclination, nodeAngle)) == 0.0
  {
    var phi := theta + majorAxisAngle;
    DirectionInOrbitalPlane(f, phi, inclination, nodeAngle);
    DotScale(Direction(f, phi, inclination, nodeAngle), OrbitRadius(f, semMajAx, ecc, theta),
             PlaneVector(f, inclination, nodeAngle));
  }

  /** With inclination 0 the direction stays in the reference plane z = 0:
      the first rotation about z keeps eₓ at height 0, the rotation about x by
      0 changes nothing, and the second rotation about z keeps the height. */
  lemma UninclinedDirectionIsFlat(f: Functions, phi: real, nodeAngle: real)
    requires Lawful(f)
    ensures Direction(f, phi, 0.0, nodeAngle).z == 0.0
  {
    var u := Apply(RotationMatrix(f, phi, Z), UnitX);
    RotationZKeepsHeight(f, phi, UnitX);
    RotationByZero(f, X, u);
    RotationZKeepsHeight(f, nodeAngle, u);
  }

  /** With inclination 0 every position lies in the reference plane z = 0,
      whatever θ, ω, Ω, a and e are. */
  lemma UninclinedPositionIsFlat(
    f: Functions, theta: real, majorAxisAngle: real, nodeAngle: real, semMajAx: real, ecc: real)
    requires Lawful(f)
    ensures OrbitPosition(f, theta, majorAxisAngle, 0.0, nodeAngle, semMajAx, ecc).z == 0.0
  {
    UninclinedDirectionIsFlat(f, theta + majorAxisAngle, nodeAngle);
    ScaleKeepsFlat(Direction(f, theta + majorAxisAngle, 0.0, nodeAngle), OrbitRadius(f, semMajAx, ecc, theta));
  }

  lemma ScaleKeepsFlat(v: Vec3, k: real)
    requires v.z == 0.0
    ensures Scale(v, k).z == 0.0
  {
  }

  /** With every angle 0 the direction is eₓ. */
  lemma ReferenceDirection(f: Functions)
    requires Lawful(f)
    ensures Direction(f, 0.0, 0.0, 0.0) == UnitX
  {
    RotationByZero(f, Z, UnitX);
    RotationByZero(f, X, UnitX);
  }

  /** With every angle and the eccentricity 0 the body sits at (a, 0, 0). */
  lemma ReferencePosition(f: Functions, semMajAx: real)
    requires Lawful(f)
    ensures OrbitPosition(f, 0.0, 0.0, 0.0, 0.0, semMajAx, 0.0) == Vec3(semMajAx, 0.0, 0.0)
  {
    ReferenceDirection(f);
    var r := OrbitRadius(f, semMajAx, 0.0, 0.0);
    assert r == semMajAx;
    ScaleUnitX(r);
  }

  /** The orbit radius lies between perihelion and aphelion, and is a for a
      circular orbit. */
  lemma RadiusBetweenApsides(f: Functions, semMajAx: real, ecc: real, theta: real)
    requires Pythagorean(f)
    requires semMajAx > 0.0 && ecc >= 0.0
    ensures PerhAph(semMajAx, ecc).0 <= OrbitRadius(f, semMajAx, ecc, theta) <= PerhAph(semMajAx, ecc).1
    ensures ecc == 0.0 ==> OrbitRadius(f, semMajAx, ecc, theta) == semMajAx
  {
    RadiusAbovePerihelion(f, semMajAx, ecc, theta);
    RadiusBelowAphelion(f, semMajAx, ecc, theta);
    if ecc == 0.0 {
      RadiusExpanded(f, semMajAx, ecc, theta);
      CircularFactor(semMajAx, ecc, Cos(f, theta));
    }
  }

  lemma RadiusAbovePerihelion(f: Functions, semMajAx: real, ecc: real, theta: real)
    requires Pythagorean(f)
    requires semMajAx > 0.0 && ecc >= 0.0
    ensures PerhAph(semMajAx, ecc).0 <= OrbitRadius(f, semMajAx, ecc, theta)
  {
    UnitCircleBound(Sin(f, theta), Cos(f, theta));
    RadiusBounds(semMajAx, ecc, Cos(f, theta));
    ApsidesExpanded(semMajAx, ecc);
    RadiusExpanded(f, semMajAx, ecc, theta);
  }

  lemma RadiusBelowAphelion(f: Functions, semMajAx: real, ecc: real, theta: real)
    requires Pythagorean(f)
    requires semMajAx > 0.0 && ecc >= 0.0
    ensures OrbitRadius(f, semMajAx, ecc, theta) <= PerhAph(semMajAx, ecc).1
  {
    UnitCircleBound(Sin(f, theta), Cos(f, theta));
    RadiusBounds(semMajAx, ecc, Cos(f, theta));
    ApsidesExpanded(semMajAx, ecc);
    RadiusExpanded(f, semMajAx, ecc, theta);
  }

  lemma RadiusExpanded(f: Functions, a: real, e: real, theta: real)
    ensures OrbitRadius(f, a, e, theta) == a * (1.0 - e * Cos(f, theta))
  {
  }

  lemma ApsidesExpanded(a: real, e: real)
    ensures PerhAph(a, e).0 == a * (1.0 - e) && PerhAph(a, e).1 == a * (1.0 + e)
  {
  }

  /** a(1 - e) <= a(1 - e·c) <= a(1 + e) for -1 <= c <= 1, with equality
      throughout when e = 0. */
  lemma RadiusBounds(a: real, e: real, c: real)
    requires a > 0.0 && e >= 0.0 && -1.0 <= c <= 1.0
    ensures a * (1.0 - e) <= a * (1.0 - e * c) <= a * (1.0 + e)
    ensures e == 0.0 ==> a * (1.0 - e * c) == a
  {
    ProductBounds(e, c);
    var ec := e * c;
    assert 1.0 - e <= 1.0 - ec <= 1.0 + e;
    MulMonotone(a, 1.0 - e, 1.0 - ec);
    MulMonotone(a, 1.0 - ec, 1.0 + e);
    if e == 0.0 {
      CircularFactor(a, e, c);
    }
  }

  /** 1 - e <= 1 - e·c <= 1 + e for e >= 0 and -1 <= c <= 1. */
  lemma ProductBounds(e: real, c: real)
    requires e >= 0.0 && -1.0 <= c <= 1.0
    ensures 1.0 - e <= 1.0 - e * c <= 1.0 + e
  {
    MulMonotone(e, -1.0, c);
    MulMonotone(e, c, 1.0);
  }

  lemma CircularFactor(a: real, e: real, c: real)
    requires e == 0.0
    ensures a * (1.0 - e * c) == a
  {
  }
}

=== FILE: orbits.dfy ===
/** The `Planet` class: one body's stored orbital parameters (in internal units:
    metres and radians) and the quantities derived from them. */
module Orbits {
  import opened Wrappers
  import opened Elementary
  import opened Constants
  import opened Geometry

  /** The stored shape parameters.  `nodeAngle` is the source's
      `plane_intersection_angle_with_maj_ax` (Ω) and `majorAxisAngle` its
      `major_axis_angle_in_planet_plane` (ω). */
  datatype Orbit = Orbit(
    semMajAx: real,
    inclination: real,
    ecc: real,
    nodeAngle: real,
    majorAxisAngle: real,
    initTheta: real)

  /** A body.  `id` stands for Python object identity: two bodies built by two
      constructor calls are distinct even when every other field is equal. */
  datatype Planet = Planet(
    id: nat,
    name: string,
    mass: real,
    orbit: Orbit,
    perh: real,
    aph: real,
    planeVector: Vec3)

  /** The range the callers are expected to respect; outside it the rate
      formulas divide by zero. */
  predicate ValidShape(o: Orbit) {
    o.semMajAx > 0.0 && 0.0 <= o.ecc < 1.0
  }

  /** Perihelion and aphelion distances of an orbit. */
  function PerhAph(semMajAx: real, ecc: real): (real, real) {
    (semMajAx * (1.0 - ecc), semMajAx * (1.0 + ecc))
  }

  /** Perihelion plus aphelion is the major axis 2a, their difference is 2ae,
      and for a, e >= 0 they enclose a. */
  lemma PerhAphProperties(semMajAx: real, ecc: real)
    ensures PerhAph(semMajAx, ecc).0 + PerhAph(semMajAx, ecc).1 == 2.0 * semMajAx
    ensures PerhAph(semMajAx, ecc).1 - PerhAph(semMajAx, ecc).0 == 2.0 * semMajAx * ecc
    ensures semMajAx >= 0.0 && ecc >= 0.0 ==> PerhAph(semMajAx, ecc).0 <= semMajAx <= PerhAph(semMajAx, ecc).1
  {
    if semMajAx >= 0.0 && ecc >= 0.0 {
      MulNonNegative(semMajAx, ecc);
    }
  }

  /** The normal of the orbital plane: the inclination-tilted normal
      (0, -sin i, cos i) turned by Ω about z. */
  function PlaneVector(f: Functions, inclination: real, nodeAngle: real): (n: Vec3)
    ensures n.z == Cos(f, inclination)
    ensures n.x == Sin(f, nodeAngle) * Sin(f, inclination)
    ensures n.y == -(Cos(f, nodeAngle) * Sin(f, inclination))
  {
    Apply(RotationMatrix(f, nodeAngle, Z), Vec3(0.0, -Sin(f, inclination), Cos(f, inclination)))
  }

  /** With no inclination the plane normal is the z axis, whatever Ω is. */
  lemma PlaneVectorUninclined(f: Functions, nodeAngle: real)
    requires Sin(f, 0.0) == 0.0 && Cos(f, 0.0) == 1.0
    ensures PlaneVector(f, 0.0, nodeAngle) == UnitZ
  {
    var n := PlaneVector(f, 0.0, nodeAngle);
    assert n.x == Sin(f, nodeAngle) * 0.0;
    assert n.y == -(Cos(f, nodeAngle) * 0.0);
  }

  /** The plane normal is a unit vector. */
  lemma PlaneVectorUnit(f: Functions, inclination: real, nodeAngle: real)
    requires Pythagorean(f)
    ensures NormSq(PlaneVector(f, inclination, nodeAngle)) == 1.0
  {
    var n := PlaneVector(f, inclination, nodeAngle);
    var si, ci := Sin(f, inclination), Cos(f, inclination);
    var so, co := Sin(f, nodeAngle), Cos(f, nodeAngle);
    assert so * so + co * co == 1.0;
    assert si * si + ci * ci == 1.0;
    calc {
      NormSq(n);
      (so * si) * (so * si) + (co * si) * (co * si) + ci * ci;
      (so * so + co * co) * (si * si) + ci * ci;
      si * si + ci * ci;
    }
  }

  /** The derived fields agree with the stored shape parameters. */
  ghost predicate Consistent(f: Functions, p: Planet) {
    && (p.perh, p.aph) == PerhAph(p.orbit.semMajAx, p.orbit.ecc)
    && p.planeVector == PlaneVector(f, p.orbit.inclination, p.orbit.nodeAngle)
  }

  /** A body whose derived fields are recomputed from `orbit`, as
      `compute_perh_aph` and `compute_planet_plane_vector` do. */
  function WithDerived(f: Functions, id: nat, name: string, mass: real, orbit: Orbit): (p: Planet)
    ensures Consistent(f, p)
    ensures p.id == id && p.name == name && p.mass == mass && p.orbit == orbit
  {
    var pa := PerhAph(orbit.semMajAx, orbit.ecc);
    Planet(id, name, mass, orbit, pa.0, pa.1, PlaneVector(f, orbit.inclination, orbit.nodeAngle))
  }

  /** `add_orbital_data`: every argument that is not `None` replaces its stored
      parameter, converted from AU or degrees to internal units; every other
      parameter keeps its value; the derived fields are recomputed. */
  function AddOrbitalData(
    f: Functions, p: Planet,
    semMajAx: Option<real> := None, inclination: Option<real> := None,
    ecc: Option<real> := None, nodeAngle: Option<real> := None,
    majorAxisAngle: Option<real> := None, initTheta: Option<real> := None): (q: Planet)
    ensures q.id == p.id && q.name == p.name && q.mass == p.mass
    ensures q.orbit.semMajAx == (if semMajAx.Some? then semMajAx.value * AuDist else p.orbit.semMajAx)
    ensures q.orbit.inclination == (if inclination.Some? then inclination.value * DegToRad else p.orbit.inclination)
    ensures q.orbit.ecc == (if ecc.Some? then ecc.value else p.orbit.ecc)
    ensures q.orbit.nodeAngle == (if nodeAngle.Some? then nodeAngle.value * DegToRad else p.orbit.nodeAngle)
    ensures q.orbit.majorAxisAngle == (if majorAxisAngle.Some? then majorAxisAngle.value * DegToRad else p.orbit.majorAxisAngle)
    ensures q.orbit.initTheta == (if initTheta.Some? then initTheta.value * DegToRad else p.orbit.initTheta)
    ensures Consistent(f, q)
  {
    WithDerived(f, p.id, p.name, p.mass,
      UpdatedOrbit(p.orbit, semMajAx, inclination, ecc, nodeAngle, majorAxisAngle, initTheta))
  }

  /** The six assignments of `add_orbital_data`, before the derived fields are
      recomputed. */
  function UpdatedOrbit(
    o: Orbit, semMajAx: Option<real>, inclination: Option<real>, ecc: Option<real>,
    nodeAngle: Option<real>, majorAxisAngle: Option<real>, initTheta: Option<real>): Orbit
  {
    Orbit(
      if semMajAx.Some? then semMajAx.value * AuDist else o.semMajAx,
      if inclination.Some? then inclination.value * DegToRad else o.inclination,
      if ecc.Some? then ecc.value else o.ecc,
      if nodeAngle.Some? then nodeAngle.value * DegToRad else o.nodeAngle,
      if majorAxisAngle.Some? then majorAxisAngle.value * DegToRad else o.majorAxisAngle,
      if initTheta.Some? then initTheta.value * DegToRad else o.initTheta)
  }

  /** `Planet(name, mass, ...)` with the constructor's defaults: 1 AU, and every
      angle and the eccentricity 0. */
  function NewPlanet(
    f: Functions, id: nat, name: string, mass: real,
    semMajAx: real := 1.0, inclination: real := 0.0, ecc: real := 0.0,
    nodeAngle: real := 0.0, majorAxisAngle: real := 0.0, initTheta: real := 0.0): (p: Planet)
    ensures p.id == id && p.name == name && p.mass == mass
    ensures Consistent(f, p)
    ensures semMajAx > 0.0 && 0.0 <= ecc < 1.0 ==> ValidShape(p.orbit)
  {
    WithDerived(f, id, name, mass,
      Orbit(semMajAx * AuDist, inclination * DegToRad, ecc,
            nodeAngle * DegToRad, majorAxisAngle * DegToRad, initTheta * DegToRad))
  }

  /** Construction is an `add_orbital_data` call with every argument given:
      the result does not depend on what the body held before. */
  lemma NewPlanetIsFullUpdate(
    f: Functions, p: Planet,
    semMajAx: real, inclination: real, ecc: real,
    nodeAngle: real, majorAxisAngle: real, initTheta: real)
    ensures NewPlanet(f, p.id, p.name, p.mass, semMajAx, inclination, ecc, nodeAngle, majorAxisAngle, initTheta)
         == AddOrbitalData(f, p, Some(semMajAx), Some(inclination), Some(ecc),
                           Some(nodeAngle), Some(majorAxisAngle), Some(initTheta))
  {
    assert UpdatedOrbit(p.orbit, Some(semMajAx), Some(inclination), Some(ecc),
                        Some(nodeAngle), Some(majorAxisAngle), Some(initTheta))
        == Orbit(semMajAx * AuDist, inclination * DegToRad, ecc,
                 nodeAngle * DegToRad, majorAxisAngle * DegToRad, initTheta * DegToRad);
  }

  /** An update with every argument `None` leaves a consistent body unchanged. */
  lemma AddOrbitalDataNothing(f: Functions, p: Planet)
    requires Consistent(f, p)
    ensures AddOrbitalData(f, p) == p
  {
  }

  /** Repeating an update changes nothing more. */
  lemma AddOrbitalDataIdempotent(
    f: Functions, p: Planet,
    semMajAx: Option<real>, inclination: Option<real>, ecc: Option<real>,
    nodeAngle: Option<real>, majorAxisAngle: Option<real>, initTheta: Option<real>)
    ensures var q := AddOrbitalData(f, p, semMajAx, inclination, ecc, nodeAngle, majorAxisAngle, initTheta);
            AddOrbitalData(f, q, semMajAx, inclination, ecc, nodeAngle, majorAxisAngle, initTheta) == q
  {
  }

  /** For a consistent body, perihelion plus aphelion is the major axis, and
      perihelion <= aphelion when a > 0 and e >= 0. */
  lemma PerhAphOfBody(f: Functions, p: Planet)
    requires Consistent(f, p)
    ensures p.perh == p.orbit.semMajAx * (1.0 - p.orbit.ecc)
    ensures p.aph == p.orbit.semMajAx * (1.0 + p.orbit.ecc)
    ensures p.perh + p.aph == 2.0 * p.orbit.semMajAx
    ensures p.orbit.semMajAx > 0.0 && p.orbit.ecc >= 0.0 ==> p.perh <= p.aph
  {
    PerhAphProperties(p.orbit.semMajAx, p.orbit.ecc);
  }

  /** The default body sits on a circle of one AU in the reference plane. */
  lemma DefaultPlanet(f: Functions, id: nat, name: string, mass: real)
    requires Lawful(f)
    ensures var p := NewPlanet(f, id, name, mass);
            p.perh == AuDist && p.aph == AuDist && p.planeVector == UnitZ
  {
    PlaneVectorUninclined(f, 0.0);
  }
}

=== FILE: planet_system.dfy ===
/** The `Planets` class: a set of bodies kept as parallel columns (bodies,
    anomaly angle θ, semi-major axis, eccentricity, perihelion, aphelion,
    current position), the per-body rate bounds, and the time step that
    advances θ and recomputes every position. */
module PlanetSystem {
  import opened Wrappers
  import opened Elementary
  import opened Constants
  import opened Geometry
  import opened Orbits
  import opened Kinematics

  /** The attributes `P`, `dth_min` and `dth_max`, which only exist once a
      body has been offered to `add_planet`. */
  datatype RateBounds = RateBounds(period: seq<real>, dthMin: seq<real>, dthMax: seq<real>)

  datatype Planets = Planets(
    dt: real,
    centerMass: real,
    planets: seq<Planet>,
    theta: seq<real>,
    semMaj: seq<real>,
    ecc: seq<real>,
    perhs: seq<real>,
    aphs: seq<real>,
    currPos: seq<Vec3>,
    rates: Option<RateBounds>)

  /** `update` before any body was added reads `dth_min`, which does not exist
      yet (an `AttributeError`). */
  datatype SystemError = MissingRateBounds

  /** What `update_and_fetch_pos` leaves behind and returns. */
  datatype Fetched = Fetched(system: Planets, positions: map<string, Vec3>)

  /** The constructor: no bodies, a ten-day step and the sun as central mass
      by default. */
  function NewPlanets(dt: real := 10.0 * DayToSec, centerMass: real := MassSun): (s: Planets)
    ensures Aligned(s) && |s.planets| == 0 && s.rates.None?
    ensures s.dt == dt && s.centerMass == centerMass
  {
    Planets(dt, centerMass, [], [], [], [], [], [], [], None)
  }

  /** The seven columns have one entry per body, and so do the rate bounds
      once they exist. */
  predicate Aligned(s: Planets) {
    var n := |s.planets|;
    && |s.theta| == n && |s.semMaj| == n && |s.ecc| == n
    && |s.perhs| == n && |s.aphs| == n && |s.currPos| == n
    && (s.rates.Some? ==>
          |s.rates.value.period| == n && |s.rates.value.dthMin| == n && |s.rates.value.dthMax| == n)
  }

  // ---------------------------------------------------------------------------
  // Positions

  /** Where a body is at anomaly θ, from its own record. */
  function BodyPosition(f: Functions, p: Planet, theta: real): Vec3 {
    OrbitPosition(f, theta, p.orbit.majorAxisAngle, p.orbit.inclination,
                  p.orbit.nodeAngle, p.orbit.semMajAx, p.orbit.ecc)
  }

  /** `calc_curr_pos_vector(k)`: the angles come from body k, θ, a and e from
      the columns. */
  function PositionAt(f: Functions, s: Planets, k: int): Vec3
    requires Aligned(s) && 0 <= k < |s.planets|
  {
    var o := s.planets[k].orbit;
    OrbitPosition(f, s.theta[k], o.majorAxisAngle, o.inclination, o.nodeAngle, s.semMaj[k], s.ecc[k])
  }

  // ---------------------------------------------------------------------------
  // Rate bounds

  /** The orbital period 2π / sqrt(G·M) · a^1.5. */
  function Period(f: Functions, centerMass: real, semMajAx: real): (p: real)
    requires Lawful(f) && centerMass > 0.0 && semMajAx > 0.0
    ensures p > 0.0
  {
    assert G * centerMass > 0.0;
    var root := Sqrt(f, G * centerMass);
    assert root > 0.0;
    var factor := 2.0 * Pi / root;
    assert factor > 0.0;
    factor * Pow(f, semMajAx, 1.5)
  }

  /** `ar_vel`: (π·dt/2) · sqrt(1 - e²) / P. */
  function ArealRate(f: Functions, dt: real, centerMass: real, semMajAx: real, ecc: real): real
    requires Lawful(f) && centerMass > 0.0 && semMajAx > 0.0
  {
    (Pi * dt / 2.0) * Sqrt(f, 1.0 - Square(ecc)) * (1.0 / Period(f, centerMass, semMajAx))
  }

  /** `dth_min`: the areal rate over (1 - e)². */
  function DthMin(f: Functions, dt: real, centerMass: real, semMajAx: real, ecc: real): real
    requires Lawful(f) && centerMass > 0.0 && semMajAx > 0.0 && ecc != 1.0
  {
    SquarePositive(1.0 - ecc);
    ArealRate(f, dt, centerMass, semMajAx, ecc) * (1.0 / Square(1.0 - ecc))
  }

  /** `dth_max`: the areal rate over (1 + e)². */
  function DthMax(f: Functions, dt: real, centerMass: real, semMajAx: real, ecc: real): real
    requires Lawful(f) && centerMass > 0.0 && semMajAx > 0.0 && ecc != -1.0
  {
    SquarePositive(1.0 + ecc);
    ArealRate(f, dt, centerMass, semMajAx, ecc) * (1.0 / Square(1.0 + ecc))
  }

  /** A circular orbit has equal bounds. */
  lemma CircularRatesEqual(f: Functions, dt: real, centerMass: real, semMajAx: real)
    requires Lawful(f) && centerMass > 0.0 && semMajAx > 0.0
    ensures DthMin(f, dt, centerMass, semMajAx, 0.0) == DthMax(f, dt, centerMass, semMajAx, 0.0)
  {
  }

  /** The areal rate has the sign of the time step. */
  lemma ArealRateSign(f: Functions, dt: real, centerMass: real, semMajAx: real, ecc: real)
    requires Lawful(f) && centerMass > 0.0 && semMajAx > 0.0 && 0.0 <= ecc < 1.0 && dt >= 0.0
    ensures ArealRate(f, dt, centerMass, semMajAx, ecc) >= 0.0
    ensures dt > 0.0 ==> ArealRate(f, dt, centerMass, semMajAx, ecc) > 0.0
  {
    var inv := 1.0 / Period(f, centerMass, semMajAx);
    var root := Sqrt(f, 1.0 - Square(ecc));
    MulNonNegative3(Pi * dt / 2.0, root, inv);
    if dt > 0.0 {
      assert 1.0 - Square(ecc) > 0.0 by { MulMonotone(ecc, ecc, 1.0); }
      MulPositive3(Pi * dt / 2.0, root, inv);
    }
  }

  /** (1 - e)² <= (1 + e)² for e >= 0. */
  lemma SquaresOrdered(e: real)
    requires e >= 0.0
    ensures Square(1.0 - e) <= Square(1.0 + e)
  {
    assert Square(1.0 + e) - Square(1.0 - e) == 4.0 * e;
  }

  /** Dividing a non-negative rate by the larger of two positive divisors
      gives the smaller quotient. */
  lemma ScaledRatesOrdered(ar: real, lo: real, hi: real)
    requires ar >= 0.0 && 0.0 < lo <= hi
    ensures 0.0 <= ar * (1.0 / hi) <= ar * (1.0 / lo)
    ensures ar > 0.0 ==> ar * (1.0 / hi) > 0.0
  {
    ReciprocalAntitone(lo, hi);
    MulMonotone(ar, 1.0 / hi, 1.0 / lo);
    MulNonNegative(ar, 1.0 / hi);
    if ar > 0.0 {
      MulPositive(ar, 1.0 / hi);
    }
  }

  /** For 0 <= e < 1 and a non-negative step, `dth_min` is the larger bound
      (the names are the other way round from the magnitudes); both are
      positive when the step is. */
  lemma RatesOrdered(f: Functions, dt: real, centerMass: real, semMajAx: real, ecc: real)
    requires Lawful(f) && centerMass > 0.0 && semMajAx > 0.0 && 0.0 <= ecc < 1.0 && dt >= 0.0
    ensures 0.0 <= DthMax(f, dt, centerMass, semMajAx, ecc) <= DthMin(f, dt, centerMass, semMajAx, ecc)
    ensures dt > 0.0 ==> DthMax(f, dt, centerMass, semMajAx, ecc) > 0.0
  {
    ArealRateSign(f, dt, centerMass, semMajAx, ecc);
    SquarePositive(1.0 - ecc);
    SquaresOrdered(ecc);
    ScaledRatesOrdered(ArealRate(f, dt, centerMass, semMajAx, ecc), Square(1.0 - ecc), Square(1.0 + ecc));
  }

  /** The columns describe admissible orbits. */
  predicate ShapesValid(semMaj: seq<real>, ecc: seq<real>) {
    && |semMaj| == |ecc|
    && (forall k :: 0 <= k < |semMaj| ==> semMaj[k] > 0.0)
    && (forall k :: 0 <= k < |ecc| ==> 0.0 <= ecc[k] < 1.0)
  }

  /** The three rate columns, recomputed for every body. */
  function ComputeRates(f: Functions, dt: real, centerMass: real, semMaj: seq<real>, ecc: seq<real>): (r: RateBounds)
    requires Lawful(f) && centerMass > 0.0 && ShapesValid(semMaj, ecc)
    ensures |r.period| == |r.dthMin| == |r.dthMax| == |semMaj|
    ensures forall k :: 0 <= k < |semMaj| ==> r.dthMin[k] == DthMin(f, dt, centerMass, semMaj[k], ecc[k])
    ensures forall k :: 0 <= k < |semMaj| ==> r.dthMax[k] == DthMax(f, dt, centerMass, semMaj[k], ecc[k])
    ensures forall k :: 0 <= k < |semMaj| ==> r.period[k] > 0.0
  {
    RateBounds(
      seq(|semMaj|, k requires 0 <= k < |semMaj| => Period(f, centerMass, semMaj[k])),
      seq(|semMaj|, k requires 0 <= k < |semMaj| => DthMin(f, dt, centerMass, semMaj[k], ecc[k])),
      seq(|semMaj|, k requires 0 <= k < |semMaj| => DthMax(f, dt, centerMass, semMaj[k], ecc[k])))
  }

  // ---------------------------------------------------------------------------
  // The system invariant

  /** No body occurs twice. */
  predicate DistinctIds(planets: seq<Planet>) {
    forall i, j :: 0 <= i < j < |planets| ==> planets[i].id != planets[j].id
  }

  /** `planet in self.planets`: membership by identity. */
  predicate Contains(planets: seq<Planet>, p: Planet) {
    exists k :: 0 <= k < |planets| && planets[k].id == p.id
  }

  /** What every reachable `Planets` object satisfies: aligned columns that
      copy each body's parameters, the current position of every body at its
      θ, no body twice, and rate bounds that exist exactly when a body has
      been added and are those of the current columns. */
  ghost predicate Valid(f: Functions, s: Planets) {
    && Lawful(f)
    && Aligned(s)
    && s.centerMass > 0.0
    && ShapesValid(s.semMaj, s.ecc)
    && (forall k :: 0 <= k < |s.planets| ==>
          && s.semMaj[k] == s.planets[k].orbit.semMajAx
          && s.ecc[k] == s.planets[k].orbit.ecc
          && s.perhs[k] == s.planets[k].perh
          && s.aphs[k] == s.planets[k].aph)
    && (forall k :: 0 <= k < |s.planets| ==> s.currPos[k] == PositionAt(f, s, k))
    && DistinctIds(s.planets)
    && (s.rates.Some? <==> |s.planets| > 0)
    && (s.rates.Some? ==> s.rates.value == ComputeRates(f, s.dt, s.centerMass, s.semMaj, s.ecc))
  }

  /** A new system satisfies the invariant. */
  lemma NewPlanetsValid(f: Functions, dt: real, centerMass: real)
    requires Lawful(f) && centerMass > 0.0
    ensures Valid(f, NewPlanets(dt, centerMass))
  {
  }

  // ---------------------------------------------------------------------------
  // add_planet

  /** The branch for an empty system: every column becomes a one-element
      column holding the body's values. */
  function FirstBody(f: Functions, s: Planets, p: Planet): (r: Planets)
    ensures Aligned(r.(rates := None)) && |r.planets| == 1
  {
    s.(planets := [p],
       theta := [p.orbit.initTheta],
       semMaj := [p.orbit.semMajAx],
       ecc := [p.orbit.ecc],
       perhs := [p.perh],
       aphs := [p.aph],
       currPos := [BodyPosition(f, p, p.orbit.initTheta)])
  }

  /** The branch for a body not yet present: one entry is appended to every
      column. */
  function AppendBody(f: Functions, s: Planets, p: Planet): (r: Planets)
    ensures |r.planets| == |s.planets| + 1
    ensures Aligned(s.(rates := None)) ==> Aligned(r.(rates := None))
  {
    s.(planets := s.planets + [p],
       theta := s.theta + [p.orbit.initTheta],
       semMaj := s.semMaj + [p.orbit.semMajAx],
       ecc := s.ecc + [p.orbit.ecc],
       perhs := s.perhs + [p.perh],
       aphs := s.aphs + [p.aph],
       currPos := s.currPos + [BodyPosition(f, p, p.orbit.initTheta)])
  }

  /** The body placed in the columns: the empty-system branch builds them
      from the body; the membership test that follows appends it unless it is
      already there (which, after the first branch, it always is). */
  function Placed(f: Functions, s: Planets, p: Planet): Planets {
    var placed := if |s.planets| == 0 then FirstBody(f, s, p) else s;
    if Contains(placed.planets, p) then placed else AppendBody(f, placed, p)
  }

  /** The rate bounds recomputed from the current columns. */
  function WithRates(f: Functions, s: Planets): (r: Planets)
    requires Lawful(f) && s.centerMass > 0.0 && ShapesValid(s.semMaj, s.ecc)
    ensures r.rates.Some? && r.(rates := s.rates) == s
  {
    s.(rates := Some(ComputeRates(f, s.dt, s.centerMass, s.semMaj, s.ecc)))
  }

  /** On an empty system both branches build the same columns. */
  lemma FirstBodyIsAppend(f: Functions, s: Planets, p: Planet)
    requires Aligned(s) && |s.planets| == 0
    ensures FirstBody(f, s, p) == AppendBody(f, s, p)
  {
    assert s.theta == [] && s.semMaj == [] && s.ecc == [];
    assert s.perhs == [] && s.aphs == [] && s.currPos == [];
  }

  /** Placing a body appends it exactly when it is not yet present. */
  lemma PlacedAppendsOnce(f: Functions, s: Planets, p: Planet)
    requires Aligned(s)
    ensures Contains(s.planets, p) ==> Placed(f, s, p) == s
    ensures !Contains(s.planets, p) ==> Placed(f, s, p) == AppendBody(f, s, p)
  {
    if |s.planets| == 0 {
      FirstBodyIsAppend(f, s, p);
      assert FirstBody(f, s, p).planets[0] == p;
    }
  }

  /** Appending keeps every earlier entry of every column. */
  lemma AppendKeepsPrefix(f: Functions, s: Planets, p: Planet, k: int)
    requires Aligned(s) && 0 <= k < |s.planets|
    ensures var a := AppendBody(f, s, p);
      && a.planets[k] == s.planets[k] && a.theta[k] == s.theta[k]
      && a.semMaj[k] == s.semMaj[k] && a.ecc[k] == s.ecc[k]
      && a.perhs[k] == s.perhs[k] && a.aphs[k] == s.aphs[k]
      && a.currPos[k] == s.currPos[k]
  {
  }

  /** Appending an admissible body keeps the columns admissible. */
  lemma AppendShapesValid(f: Functions, s: Planets, p: Planet)
    requires Aligned(s) && ShapesValid(s.semMaj, s.ecc) && ValidShape(p.orbit)
    ensures ShapesValid(AppendBody(f, s, p).semMaj, AppendBody(f, s, p).ecc)
  {
    var a := AppendBody(f, s, p);
    assert forall k :: 0 <= k < |s.planets| ==> a.semMaj[k] == s.semMaj[k] && a.ecc[k] == s.ecc[k];
  }

  /** After appending, every current position is still that of its body at
      its θ. */
  lemma AppendPositions(f: Functions, s: Planets, p: Planet, r: Planets)
    requires Valid(f, s) && ShapesValid(AppendBody(f, s, p).semMaj, AppendBody(f, s, p).ecc)
    requires r == WithRates(f, AppendBody(f, s, p))
    ensures forall k :: 0 <= k < |r.planets| ==> r.currPos[k] == PositionAt(f, r, k)
  {
    var n := |s.planets|;
    forall k | 0 <= k < n + 1
      ensures r.currPos[k] == PositionAt(f, r, k)
    {
      if k < n {
        AppendKeepsPrefix(f, s, p, k);
        assert r.currPos[k] == PositionAt(f, s, k);
      }
    }
  }

  /** Appending a body not yet present keeps the bodies distinct. */
  lemma AppendDistinct(s: seq<Planet>, p: Planet)
    requires DistinctIds(s) && !Contains(s, p)
    ensures DistinctIds(s + [p])
  {
    var r := s + [p];
    forall i, j | 0 <= i < j < |r|
      ensures r[i].id != r[j].id
    {
      if j == |s| {
        assert r[i] == s[i];
      }
    }
  }

  /** Appending a new, admissible body and recomputing the rates keeps the
      invariant. */
  lemma AppendValid(f: Functions, s: Planets, p: Planet)
    requires Valid(f, s) && ValidShape(p.orbit) && !Contains(s.planets, p)
    ensures ShapesValid(AppendBody(f, s, p).semMaj, AppendBody(f, s, p).ecc)
    ensures Valid(f, WithRates(f, AppendBody(f, s, p)))
  {
    var a := AppendBody(f, s, p);
    var n := |s.planets|;
    AppendShapesValid(f, s, p);
    forall k | 0 <= k < n + 1
      ensures a.semMaj[k] == a.planets[k].orbit.semMajAx && a.ecc[k] == a.planets[k].orbit.ecc
      ensures a.perhs[k] == a.planets[k].perh && a.aphs[k] == a.planets[k].aph
    {
      if k < n {
        AppendKeepsPrefix(f, s, p, k);
      }
    }
    var r := WithRates(f, a);
    AppendPositions(f, s, p, r);
    AppendDistinct(s.planets, p);
  }

  /** `add_planet`: nothing happens for `None`; otherwise the body is placed
      in the columns (never twice) and the rate bounds are recomputed from
      the columns. */
  function AddPlanet(f: Functions, s: Planets, planet: Option<Planet> := None): (r: Planets)
    requires Valid(f, s)
    requires planet.Some? ==> ValidShape(planet.value.orbit)
    ensures Valid(f, r)
    ensures planet.None? ==> r == s
    ensures planet.Some? && Contains(s.planets, planet.value) ==> r == s
    ensures planet.Some? && !Contains(s.planets, planet.value) ==>
      var p := planet.value;
      && r.planets == s.planets + [p]
      && r.theta == s.theta + [p.orbit.initTheta]
      && r.semMaj == s.semMaj + [p.orbit.semMajAx]
      && r.ecc == s.ecc + [p.orbit.ecc]
      && r.perhs == s.perhs + [p.perh]
      && r.aphs == s.aphs + [p.aph]
      && r.currPos == s.currPos + [BodyPosition(f, p, p.orbit.initTheta)]
    ensures r.dt == s.dt && r.centerMass == s.centerMass
  {
    if planet.None? then s
    else
      var p := planet.value;
      PlacedAppendsOnce(f, s, p);
      if Contains(s.planets, p) then
        WithRates(f, Placed(f, s, p))
      else
        AppendValid(f, s, p);
        WithRates(f, Placed(f, s, p))
  }

  /** Containing a body and offering it again changes nothing: after
      `add_planet(p)` the body is present, and a second `add_planet(p)` is
      a no-op. */
  lemma AddPlanetIdempotent(f: Functions, s: Planets, p: Planet)
    requires Valid(f, s) && ValidShape(p.orbit)
    ensures Contains(AddPlanet(f, s, Some(p)).planets, p)
    ensures AddPlanet(f, AddPlanet(f, s, Some(p)), Some(p)) == AddPlanet(f, s, Some(p))
  {
    var r := AddPlanet(f, s, Some(p));
    if Contains(s.planets, p) {
      assert r == s;
    } else {
      assert r.planets[|s.planets|] == p;
    }
  }

  // ---------------------------------------------------------------------------
  // The θ step of update_theta

  /** The step of `update_theta` as written: interpolation from `dth_min` at
      θ = π to `dth_max` at θ = 0 and θ = 2π, on |π − θ| with θ as it stands.
      θ only ever grows and is never reduced to one turn. */
  function ThetaStepAsWritten(dthMin: real, dthMax: real, theta: real): real {
    dthMin + ((dthMax - dthMin) / Pi) * Abs(Pi - theta)
  }

  /** θ reduced to the first turn [0, 2π). */
  function WrapAngle(theta: real): (r: real)
    ensures 0.0 <= r < 2.0 * Pi
  {
    var turns := (theta / (2.0 * Pi)).Floor;
    assert turns as real <= theta / (2.0 * Pi) < turns as real + 1.0;
    theta - turns as real * (2.0 * Pi)
  }

  /** The step as evidently intended: the same interpolation, on θ reduced to
      its first turn, so that it repeats every revolution. */
  function ThetaStep(dthMin: real, dthMax: real, theta: real): real {
    ThetaStepAsWritten(dthMin, dthMax, WrapAngle(theta))
  }

  /** Moving a distance a <= π away from the peak interpolates between the two
      bounds. */
  lemma InterpolationBounds(lo: real, hi: real, a: real)
    requires hi <= lo && 0.0 <= a <= Pi
    ensures hi <= lo + ((hi - lo) / Pi) * a <= lo
  {
    var k := (lo - hi) / Pi;
    MulMonotone(k, a, Pi);
    MulNonNegative(k, a);
    assert ((hi - lo) / Pi) * a == -(k * a);
  }

  /** On the first turn [0, 2π] the step lies between the two bounds. */
  lemma StepAsWrittenFirstTurn(dthMin: real, dthMax: real, theta: real)
    requires dthMax <= dthMin && 0.0 <= theta <= 2.0 * Pi
    ensures dthMax <= ThetaStepAsWritten(dthMin, dthMax, theta) <= dthMin
  {
    InterpolationBounds(dthMin, dthMax, Abs(Pi - theta));
  }

  /** The step is `dth_min` at θ = π and `dth_max` at θ = 0 and θ = 2π. */
  lemma StepAsWrittenEnds(dthMin: real, dthMax: real)
    ensures ThetaStepAsWritten(dthMin, dthMax, Pi) == dthMin
    ensures ThetaStepAsWritten(dthMin, dthMax, 0.0) == dthMax
    ensures ThetaStepAsWritten(dthMin, dthMax, 2.0 * Pi) == dthMax
  {
    assert Abs(Pi - 0.0) == Pi && Abs(Pi - 2.0 * Pi) == Pi;
  }

  /** Past the first turn the step as written falls below `dth_max` for any
      eccentric orbit, and keeps falling as θ grows. */
  lemma StepAsWrittenBelowMaxAfterTurn(dthMin: real, dthMax: real, theta: real)
    requires dthMax < dthMin && theta > 2.0 * Pi
    ensures ThetaStepAsWritten(dthMin, dthMax, theta) < dthMax
  {
    var k := (dthMin - dthMax) / Pi;
    MulStrictMonotone(k, Pi, theta - Pi);
    assert Abs(Pi - theta) == theta - Pi;
    assert ((dthMax - dthMin) / Pi) * (theta - Pi) == -(k * (theta - Pi));
  }

  /** The angle past the first turn at which the step as written reaches 0. */
  function StallAngle(dthMin: real, dthMax: real): real
    requires dthMax < dthMin
  {
    Pi + Pi * dthMin / (dthMin - dthMax)
  }

  /** For positive bounds with `dth_max` < `dth_min` (every eccentric orbit
      with a positive time step), the step as written is 0 at the stall angle,
      which lies past the first turn: once there, θ never moves again. */
  lemma StepAsWrittenStalls(dthMin: real, dthMax: real)
    requires 0.0 < dthMax < dthMin
    ensures StallAngle(dthMin, dthMax) > 2.0 * Pi
    ensures ThetaStepAsWritten(dthMin, dthMax, StallAngle(dthMin, dthMax)) == 0.0
  {
    var d := dthMin - dthMax;
    var a := Pi * dthMin / d;
    QuotientAboveOne(dthMin, d);
    MulStrictMonotone(Pi, 1.0, dthMin / d);
    assert a == Pi * (dthMin / d);
    assert Abs(Pi - StallAngle(dthMin, dthMax)) == a;
    assert ((dthMax - dthMin) / Pi) * a == -dthMin;
  }

  /** Past θ = π the step as written is proportional to the remaining
      distance to the stall angle. */
  lemma StepAsWrittenTowardsStall(dthMin: real, dthMax: real, theta: real)
    requires dthMax < dthMin && theta >= Pi
    ensures ThetaStepAsWritten(dthMin, dthMax, theta)
         == ((dthMin - dthMax) / Pi) * (StallAngle(dthMin, dthMax) - theta)
  {
    var k := (dthMin - dthMax) / Pi;
    var a := Pi * dthMin / (dthMin - dthMax);
    assert Abs(Pi - theta) == theta - Pi;
    assert ((dthMax - dthMin) / Pi) * (theta - Pi) == -(k * (theta - Pi));
    assert k * a == dthMin;
    assert k * (StallAngle(dthMin, dthMax) - theta) == k * a - k * (theta - Pi);
  }

  /** Mirrored below the first turn: for θ < 2π − θ* (θ* the stall angle)
      the step as written is negative, so an eccentric body started there
      runs backwards. */
  lemma StepAsWrittenBackwards(dthMin: real, dthMax: real, theta: real)
    requires 0.0 < dthMax < dthMin && theta < 2.0 * Pi - StallAngle(dthMin, dthMax)
    ensures ThetaStepAsWritten(dthMin, dthMax, theta) < 0.0
  {
    var k := (dthMin - dthMax) / Pi;
    var a := Pi * dthMin / (dthMin - dthMax);
    assert a > 0.0;
    assert Abs(Pi - theta) == Pi - theta;
    assert ((dthMax - dthMin) / Pi) * (Pi - theta) == -(k * (Pi - theta));
    assert k * a == dthMin;
    MulStrictMonotone(k, a, Pi - theta);
  }

  /** Between the end of the first turn and the stall angle, a step as
      written moves θ forward but never past the stall angle, as long as the
      bounds differ by at most π (a step of at most half a turn). */
  lemma StepAsWrittenTrapped(dthMin: real, dthMax: real, theta: real)
    requires 0.0 < dthMax < dthMin && dthMin - dthMax <= Pi
    requires 2.0 * Pi <= theta <= StallAngle(dthMin, dthMax)
    ensures theta <= theta + ThetaStepAsWritten(dthMin, dthMax, theta) <= StallAngle(dthMin, dthMax)
  {
    var k := (dthMin - dthMax) / Pi;
    var d := StallAngle(dthMin, dthMax) - theta;
    StepAsWrittenTowardsStall(dthMin, dthMax, theta);
    assert 0.0 < k <= 1.0;
    MulNonNegative(k, d);
    MulMonotone(d, k, 1.0);
  }

  /** θ after `n` updates as written, with fixed bounds. */
  function IterateAsWritten(dthMin: real, dthMax: real, theta: real, n: nat): real {
    if n == 0 then theta
    else
      var prev := IterateAsWritten(dthMin, dthMax, theta, n - 1);
      prev + ThetaStepAsWritten(dthMin, dthMax, prev)
  }

  /** Once past the first turn, θ as written stays below the stall angle
      forever: the body never finishes its second revolution. */
  lemma {:induction false} IterateAsWrittenNeverPassesStall(dthMin: real, dthMax: real, theta: real, n: nat)
    requires 0.0 < dthMax < dthMin && dthMin - dthMax <= Pi
    requires 2.0 * Pi <= theta <= StallAngle(dthMin, dthMax)
    ensures theta <= IterateAsWritten(dthMin, dthMax, theta, n) <= StallAngle(dthMin, dthMax)
  {
    if n > 0 {
      IterateAsWrittenNeverPassesStall(dthMin, dthMax, theta, n - 1);
      StepAsWrittenTrapped(dthMin, dthMax, IterateAsWritten(dthMin, dthMax, theta, n - 1));
    }
  }

  /** θ after `n` corrected updates. */
  function Iterate(dthMin: real, dthMax: real, theta: real, n: nat): real {
    if n == 0 then theta
    else
      var prev := Iterate(dthMin, dthMax, theta, n - 1);
      prev + ThetaStep(dthMin, dthMax, prev)
  }

  /** With the corrected step, n updates advance θ by at least n·`dth_max`:
      every body keeps revolving. */
  lemma {:induction false} IterateAdvances(dthMin: real, dthMax: real, theta: real, n: nat)
    requires dthMax <= dthMin
    ensures Iterate(dthMin, dthMax, theta, n) >= theta + n as real * dthMax
  {
    if n > 0 {
      var prev := Iterate(dthMin, dthMax, theta, n - 1);
      assert Iterate(dthMin, dthMax, theta, n) == prev + ThetaStep(dthMin, dthMax, prev);
      IterateAdvances(dthMin, dthMax, theta, n - 1);
      ThetaStepBounded(dthMin, dthMax, prev);
      MulSuccessor((n - 1) as real, n as real, dthMax);
    }
  }

  /** Reducing an angle of the first turn leaves it as it is. */
  lemma WrapAngleFirstTurn(theta: real)
    requires 0.0 <= theta < 2.0 * Pi
    ensures WrapAngle(theta) == theta
  {
    assert 0.0 <= theta / (2.0 * Pi) < 1.0;
    assert (theta / (2.0 * Pi)).Floor == 0;
  }

  /** One more revolution reduces to the same angle. */
  lemma WrapAnglePeriodic(theta: real)
    ensures WrapAngle(theta + 2.0 * Pi) == WrapAngle(theta)
  {
    var k := (theta / (2.0 * Pi)).Floor;
    assert (theta + 2.0 * Pi) / (2.0 * Pi) == theta / (2.0 * Pi) + 1.0;
    assert ((theta + 2.0 * Pi) / (2.0 * Pi)).Floor == k + 1;
    assert (k + 1) as real * (2.0 * Pi) == k as real * (2.0 * Pi) + 2.0 * Pi;
  }

  /** The corrected step always lies between the two bounds. */
  lemma ThetaStepBounded(dthMin: real, dthMax: real, theta: real)
    requires dthMax <= dthMin
    ensures dthMax <= ThetaStep(dthMin, dthMax, theta) <= dthMin
  {
    StepAsWrittenFirstTurn(dthMin, dthMax, WrapAngle(theta));
  }

  /** The corrected step is the step as written on the first turn. */
  lemma ThetaStepAgreesOnFirstTurn(dthMin: real, dthMax: real, theta: real)
    requires 0.0 <= theta < 2.0 * Pi
    ensures ThetaStep(dthMin, dthMax, theta) == ThetaStepAsWritten(dthMin, dthMax, theta)
  {
    WrapAngleFirstTurn(theta);
  }

  /** The corrected step repeats every revolution. */
  lemma ThetaStepPeriodic(dthMin: real, dthMax: real, theta: real)
    ensures ThetaStep(dthMin, dthMax, theta + 2.0 * Pi) == ThetaStep(dthMin, dthMax, theta)
  {
    WrapAnglePeriodic(theta);
  }

  /** With equal bounds (a circular orbit) both steps are uniform. */
  lemma CircularStepUniform(dth: real, theta: real)
    ensures ThetaStepAsWritten(dth, dth, theta) == dth
    ensures ThetaStep(dth, dth, theta) == dth
  {
    assert (dth - dth) / Pi == 0.0;
  }

  /** Both bounds are the areal rate over the squared apsis factor:
      `dth_min`·(1 - e)² = `dth_max`·(1 + e)². */
  lemma RatesShareArealRate(f: Functions, dt: real, centerMass: real, semMajAx: real, ecc: real)
    requires Lawful(f) && centerMass > 0.0 && semMajAx > 0.0 && 0.0 <= ecc < 1.0
    ensures DthMin(f, dt, centerMass, semMajAx, ecc) * Square(1.0 - ecc) == ArealRate(f, dt, centerMass, semMajAx, ecc)
    ensures DthMax(f, dt, centerMass, semMajAx, ecc) * Square(1.0 + ecc) == ArealRate(f, dt, centerMass, semMajAx, ecc)
  {
    var ar := ArealRate(f, dt, centerMass, semMajAx, ecc);
    SquarePositive(1.0 - ecc);
    SquarePositive(1.0 + ecc);
    CancelReciprocal(ar, Square(1.0 - ecc));
    CancelReciprocal(ar, Square(1.0 + ecc));
  }

  /** For a positive step and 0 < e < 1 the bounds differ strictly. */
  lemma EccentricRatesDiffer(f: Functions, dt: real, centerMass: real, semMajAx: real, ecc: real)
    requires Lawful(f) && centerMass > 0.0 && semMajAx > 0.0 && 0.0 < ecc < 1.0 && dt > 0.0
    ensures 0.0 < DthMax(f, dt, centerMass, semMajAx, ecc) < DthMin(f, dt, centerMass, semMajAx, ecc)
  {
    var ar := ArealRate(f, dt, centerMass, semMajAx, ecc);
    ArealRateSign(f, dt, centerMass, semMajAx, ecc);
    SquarePositive(1.0 - ecc);
    assert Square(1.0 + ecc) - Square(1.0 - ecc) == 4.0 * ecc;
    ReciprocalStrictlyAntitone(Square(1.0 - ecc), Square(1.0 + ecc));
    MulStrictMonotone(ar, 1.0 / Square(1.0 + ecc), 1.0 / Square(1.0 - ecc));
    MulPositive(ar, 1.0 / Square(1.0 + ecc));
  }

  /** `update` as written, for any eccentric orbit and positive step: there is
      an angle past the first turn at which the body's θ no longer moves. */
  lemma UpdateAsWrittenStalls(f: Functions, dt: real, centerMass: real, semMajAx: real, ecc: real)
    requires Lawful(f) && centerMass > 0.0 && semMajAx > 0.0 && 0.0 < ecc < 1.0 && dt > 0.0
    ensures var lo, hi := DthMin(f, dt, centerMass, semMajAx, ecc), DthMax(f, dt, centerMass, semMajAx, ecc);
            hi < lo && StallAngle(lo, hi) > 2.0 * Pi && ThetaStepAsWritten(lo, hi, StallAngle(lo, hi)) == 0.0
  {
    EccentricRatesDiffer(f, dt, centerMass, semMajAx, ecc);
    StepAsWrittenStalls(DthMin(f, dt, centerMass, semMajAx, ecc), DthMax(f, dt, centerMass, semMajAx, ecc));
  }

  /** The corrected step keeps every body moving: with a positive time step it
      is at least `dth_max` > 0 at every θ. */
  lemma ThetaStepAdvances(f: Functions, dt: real, centerMass: real, semMajAx: real, ecc: real, theta: real)
    requires Lawful(f) && centerMass > 0.0 && semMajAx > 0.0 && 0.0 <= ecc < 1.0 && dt > 0.0
    ensures ThetaStep(DthMin(f, dt, centerMass, semMajAx, ecc), DthMax(f, dt, centerMass, semMajAx, ecc), theta)
         >= DthMax(f, dt, centerMass, semMajAx, ecc) > 0.0
  {
    RatesOrdered(f, dt, centerMass, semMajAx, ecc);
    ThetaStepBounded(DthMin(f, dt, centerMass, semMajAx, ecc), DthMax(f, dt, centerMass, semMajAx, ecc), theta);
  }

  /** A concrete instance: an orbit with e = 0.2 (Mercury's eccentricity)
      stalls at θ = 2.8π ≈ 8.80 rad, early in its second revolution, where
      the corrected step is still at least `dth_max`. */
  lemma EccentricityPointTwoStalls(f: Functions, dt: real, centerMass: real, semMajAx: real)
    requires Lawful(f) && centerMass > 0.0 && semMajAx > 0.0 && dt > 0.0
    ensures var lo, hi := DthMin(f, dt, centerMass, semMajAx, 0.2), DthMax(f, dt, centerMass, semMajAx, 0.2);
            ThetaStepAsWritten(lo, hi, 2.8 * Pi) == 0.0 && ThetaStep(lo, hi, 2.8 * Pi) >= hi > 0.0
  {
    var lo, hi := DthMin(f, dt, centerMass, semMajAx, 0.2), DthMax(f, dt, centerMass, semMajAx, 0.2);
    RatesShareArealRate(f, dt, centerMass, semMajAx, 0.2);
    EccentricRatesDiffer(f, dt, centerMass, semMajAx, 0.2);
    assert lo * 0.64 == hi * 1.44;
    assert lo - hi == 1.25 * hi;
    assert Pi * lo / (lo - hi) == 1.8 * Pi;
    StepAsWrittenStalls(lo, hi);
    assert StallAngle(lo, hi) == 2.8 * Pi;
    ThetaStepAdvances(f, dt, centerMass, semMajAx, 0.2, 2.8 * Pi);
  }

  // ---------------------------------------------------------------------------
  // update and update_and_fetch_pos

  /** Every θ advanced by its own (corrected) step. */
  function NextTheta(s: Planets): (theta: seq<real>)
    requires Aligned(s) && s.rates.Some?
    ensures |theta| == |s.theta|
  {
    var b := s.rates.value;
    seq(|s.theta|, k requires 0 <= k < |s.theta| => s.theta[k] + ThetaStep(b.dthMin[k], b.dthMax[k], s.theta[k]))
  }

  /** Every θ advanced by the step of `update_theta` as written. */
  function NextThetaAsWritten(s: Planets): (theta: seq<real>)
    requires Aligned(s) && s.rates.Some?
    ensures |theta| == |s.theta|
  {
    var b := s.rates.value;
    seq(|s.theta|, k requires 0 <= k < |s.theta| => s.theta[k] + ThetaStepAsWritten(b.dthMin[k], b.dthMax[k], s.theta[k]))
  }

  /** `t` differs from `s` in its angles and positions only, and every
      position of `t` is its body's position at the angle `t` holds. */
  ghost predicate Repositioned(f: Functions, s: Planets, t: Planets)
    requires Aligned(s)
  {
    && t.(theta := s.theta, currPos := s.currPos) == s
    && |t.theta| == |s.theta| && |t.currPos| == |s.currPos|
    && (forall k :: 0 <= k < |t.planets| ==> t.currPos[k] == PositionAt(f, t, k))
  }

  /** `t` is `s` after one (corrected) `update`: each θ has moved by its
      step, every position is recomputed at the new θ, and nothing else has
      changed. */
  ghost predicate Stepped(f: Functions, s: Planets, t: Planets)
    requires Aligned(s) && s.rates.Some?
  {
    var b := s.rates.value;
    && Repositioned(f, s, t)
    && (forall k :: 0 <= k < |s.theta| ==>
          t.theta[k] == s.theta[k] + ThetaStep(b.dthMin[k], b.dthMax[k], s.theta[k]))
  }

  /** `t` is `s` after one `update` as written: the same, with each θ moved
      by the step of `update_theta` at θ as it stands. */
  ghost predicate SteppedAsWritten(f: Functions, s: Planets, t: Planets)
    requires Aligned(s) && s.rates.Some?
  {
    var b := s.rates.value;
    && Repositioned(f, s, t)
    && (forall k :: 0 <= k < |s.theta| ==>
          t.theta[k] == s.theta[k] + ThetaStepAsWritten(b.dthMin[k], b.dthMax[k], s.theta[k]))
  }

  /** The loop of `update`: `update_curr_pos(i)` for every body in turn, at
      the angles `t` holds. */
  method RecomputePositions(f: Functions, t: Planets) returns (pos: seq<Vec3>)
    requires Aligned(t)
    ensures |pos| == |t.planets|
    ensures forall k :: 0 <= k < |t.planets| ==> pos[k] == PositionAt(f, t, k)
  {
    pos := t.currPos;
    var i := 0;
    while i < |t.planets|
      invariant 0 <= i <= |t.planets| && |pos| == |t.planets|
      invariant forall k :: 0 <= k < i ==> pos[k] == PositionAt(f, t, k)
    {
      pos := pos[i := PositionAt(f, t, i)];
      i := i + 1;
    }
  }

  /** `update` as written: advance every θ by the step of `update_theta`,
      then recompute the position of every body in turn.  Before any body
      was offered there are no rate bounds, and the source fails. */
  method UpdateAsWritten(f: Functions, s: Planets) returns (r: Result<Planets, SystemError>)
    requires Valid(f, s)
    ensures r.Failure? <==> s.rates.None?
    ensures r.Failure? ==> r.error == MissingRateBounds && |s.planets| == 0
    ensures r.Success? ==> SteppedAsWritten(f, s, r.value) && Valid(f, r.value)
  {
    if s.rates.None? {
      return Failure(MissingRateBounds);
    }
    var t := s.(theta := NextThetaAsWritten(s));
    var pos := RecomputePositions(f, t);
    r := Success(t.(currPos := pos));
  }

  /** `update` with the corrected step: the same as `UpdateAsWritten`, with
      θ reduced to its first turn inside the step. */
  method Update(f: Functions, s: Planets) returns (r: Result<Planets, SystemError>)
    requires Valid(f, s)
    ensures r.Failure? <==> s.rates.None?
    ensures r.Failure? ==> r.error == MissingRateBounds && |s.planets| == 0
    ensures r.Success? ==> Stepped(f, s, r.value) && Valid(f, r.value)
  {
    if s.rates.None? {
      return Failure(MissingRateBounds);
    }
    var t := s.(theta := NextTheta(s));
    var pos := RecomputePositions(f, t);
    r := Success(t.(currPos := pos));
  }

  /** While every θ lies on its first turn, the corrected update and the
      update as written produce the same system. */
  lemma UpdatesAgreeOnFirstTurn(f: Functions, s: Planets, t: Planets, u: Planets)
    requires Aligned(s) && s.rates.Some? && Stepped(f, s, t) && SteppedAsWritten(f, s, u)
    requires forall k :: 0 <= k < |s.theta| ==> 0.0 <= s.theta[k] < 2.0 * Pi
    ensures t == u
  {
    var b := s.rates.value;
    forall k | 0 <= k < |s.theta|
      ensures t.theta[k] == u.theta[k]
    {
      ThetaStepAgreesOnFirstTurn(b.dthMin[k], b.dthMax[k], s.theta[k]);
    }
    assert t.theta == u.theta;
    assert t.currPos == u.currPos;
  }

  /** Under `update` as written, an eccentric body that has reached its stall
      angle stays there: neither its θ nor its position changes again. */
  lemma SteppedAsWrittenFrozenAtStall(f: Functions, s: Planets, t: Planets, k: int)
    requires Valid(f, s) && s.rates.Some? && SteppedAsWritten(f, s, t) && s.dt > 0.0
    requires 0 <= k < |s.planets| && s.ecc[k] > 0.0
    requires s.rates.value.dthMax[k] < s.rates.value.dthMin[k]
    requires s.theta[k] == StallAngle(s.rates.value.dthMin[k], s.rates.value.dthMax[k])
    ensures t.theta[k] == s.theta[k] && t.currPos[k] == s.currPos[k]
  {
    var b := s.rates.value;
    EccentricRatesDiffer(f, s.dt, s.centerMass, s.semMaj[k], s.ecc[k]);
    StepAsWrittenStalls(b.dthMin[k], b.dthMax[k]);
    assert PositionAt(f, t, k) == PositionAt(f, s, k);
  }

  /** With a positive time step, every corrected `update` moves every body
      forward. */
  lemma SteppedAdvances(f: Functions, s: Planets, t: Planets)
    requires Valid(f, s) && s.rates.Some? && s.dt > 0.0 && Stepped(f, s, t)
    ensures forall k :: 0 <= k < |s.theta| ==> t.theta[k] > s.theta[k]
  {
    forall k | 0 <= k < |s.theta|
      ensures t.theta[k] > s.theta[k]
    {
      ThetaStepAdvances(f, s.dt, s.centerMass, s.semMaj[k], s.ecc[k], s.theta[k]);
    }
  }

  /** With a positive time step, an `update` as written moves forward every
      body whose θ is on its first turn [0, 2π]. */
  lemma SteppedAsWrittenAdvancesOnFirstTurn(f: Functions, s: Planets, t: Planets, k: int)
    requires Valid(f, s) && s.rates.Some? && s.dt > 0.0 && SteppedAsWritten(f, s, t)
    requires 0 <= k < |s.planets| && 0.0 <= s.theta[k] <= 2.0 * Pi
    ensures t.theta[k] > s.theta[k]
  {
    RatesOrdered(f, s.dt, s.centerMass, s.semMaj[k], s.ecc[k]);
    StepAsWrittenFirstTurn(s.rates.value.dthMin[k], s.rates.value.dthMax[k], s.theta[k]);
  }

  /** On the first turn the corrected update moves θ exactly as the source
      does. */
  lemma SteppedAgreesOnFirstTurn(f: Functions, s: Planets, t: Planets, k: int)
    requires Aligned(s) && s.rates.Some? && Stepped(f, s, t)
    requires 0 <= k < |s.planets| && 0.0 <= s.theta[k] < 2.0 * Pi
    ensures t.theta[k] == s.theta[k] + ThetaStepAsWritten(s.rates.value.dthMin[k], s.rates.value.dthMax[k], s.theta[k])
  {
    ThetaStepAgreesOnFirstTurn(s.rates.value.dthMin[k], s.rates.value.dthMax[k], s.theta[k]);
  }

  /** A body on a circular orbit advances by the same amount at every
      `update`, as written or corrected, whatever its θ: its two bounds
      coincide. */
  lemma CircularBodyUniformStep(f: Functions, s: Planets, t: Planets, k: int)
    requires Valid(f, s) && s.rates.Some? && (Stepped(f, s, t) || SteppedAsWritten(f, s, t))
    requires 0 <= k < |s.planets| && s.ecc[k] == 0.0
    ensures t.theta[k] == s.theta[k] + DthMin(f, s.dt, s.centerMass, s.semMaj[k], 0.0)
  {
    CircularRatesEqual(f, s.dt, s.centerMass, s.semMaj[k]);
    CircularStepUniform(DthMin(f, s.dt, s.centerMass, s.semMaj[k], 0.0), s.theta[k]);
  }

  /** Every stored current position lies in its body's orbital plane, when
      the body's plane vector was computed from its own angles. */
  lemma CurrentPositionInPlane(f: Functions, s: Planets, k: int)
    requires Valid(f, s) && Pythagorean(f) && 0 <= k < |s.planets| && Consistent(f, s.planets[k])
    ensures Dot(s.currPos[k], s.planets[k].planeVector) == 0.0
  {
    var o := s.planets[k].orbit;
    PositionInOrbitalPlane(f, s.theta[k], o.majorAxisAngle, o.inclination, o.nodeAngle, s.semMaj[k], s.ecc[k]);
  }

  /** A position converted from metres to AU. */
  function ToAu(v: Vec3): Vec3 {
    Scale(v, 1.0 / AuDist)
  }

  /** `planets_curr_pos * conv_factor`, row by row. */
  function AuPositions(pos: seq<Vec3>): (au: seq<Vec3>)
    ensures |au| == |pos|
  {
    seq(|pos|, k requires 0 <= k < |pos| => ToAu(pos[k]))
  }

  /** Converting back multiplies by `AU_DIST`. */
  lemma ToAuInverse(v: Vec3)
    ensures Scale(ToAu(v), AuDist) == v
  {
    CancelReciprocal(v.x, AuDist);
    CancelReciprocal(v.y, AuDist);
    CancelReciprocal(v.z, AuDist);
  }

  /** The dictionary `{name: position}` built in body order: a later body
      with the same name overwrites the earlier entry. */
  function NamedPositions(names: seq<string>, pos: seq<Vec3>): map<string, Vec3>
    requires |names| == |pos|
  {
    if |names| == 0 then map[]
    else NamedPositions(names[..|names| - 1], pos[..|pos| - 1])[names[|names| - 1] := pos[|pos| - 1]]
  }

  /** The dictionary has one key per distinct name, and no other. */
  lemma {:induction false} NamedPositionsKeys(names: seq<string>, pos: seq<Vec3>)
    requires |names| == |pos|
    ensures NamedPositions(names, pos).Keys == set k | 0 <= k < |names| :: names[k]
  {
    if |names| > 0 {
      var n := |names|;
      NamedPositionsKeys(names[..n - 1], pos[..n - 1]);
      assert forall k :: 0 <= k < n - 1 ==> names[..n - 1][k] == names[k];
      assert (set k | 0 <= k < n :: names[k]) == (set k | 0 <= k < n - 1 :: names[k]) + {names[n - 1]};
    }
  }

  /** Each name maps to the position of the last body carrying it. */
  lemma {:induction false} NamedPositionsLastWins(names: seq<string>, pos: seq<Vec3>, k: int)
    requires |names| == |pos| && 0 <= k < |names|
    requires forall j :: k < j < |names| ==> names[j] != names[k]
    ensures names[k] in NamedPositions(names, pos)
    ensures NamedPositions(names, pos)[names[k]] == pos[k]
  {
    var n := |names|;
    if k < n - 1 {
      NamedPositionsLastWins(names[..n - 1], pos[..n - 1], k);
    }
  }

  /** The names of the bodies, in order. */
  function Names(s: Planets): (names: seq<string>)
    ensures |names| == |s.planets|
  {
    seq(|s.planets|, k requires 0 <= k < |s.planets| => s.planets[k].name)
  }

  /** The dictionary comprehension of `update_and_fetch_pos`, one body at a
      time. */
  method BuildNamedPositions(names: seq<string>, pos: seq<Vec3>) returns (m: map<string, Vec3>)
    requires |names| == |pos|
    ensures m == NamedPositions(names, pos)
  {
    m := map[];
    var i := 0;
    while i < |names|
      invariant 0 <= i <= |names|
      invariant m == NamedPositions(names[..i], pos[..i])
    {
      assert names[..i + 1][..i] == names[..i] && pos[..i + 1][..i] == pos[..i];
      m := m[names[i] := pos[i]];
      i := i + 1;
    }
    assert names[..i] == names && pos[..i] == pos;
  }

  /** `update_and_fetch_pos` as written: `if self.update` tests the bound
      method, which is always true, so the step as written is always taken
      whatever `update` says; the positions are then converted to AU and
      keyed by name. */
  method UpdateAndFetchPosAsWritten(f: Functions, s: Planets, units: string := "AU", update: bool := true)
    returns (r: Result<Fetched, SystemError>)
    requires Valid(f, s) && units == "AU"
    ensures r.Failure? <==> s.rates.None?
    ensures r.Success? ==> SteppedAsWritten(f, s, r.value.system) && Valid(f, r.value.system)
    ensures r.Success? ==>
      r.value.positions == NamedPositions(Names(r.value.system), AuPositions(r.value.system.currPos))
  {
    var stepped := UpdateAsWritten(f, s);
    if stepped.Failure? {
      return Failure(stepped.error);
    }
    var t := stepped.value;
    var m := BuildNamedPositions(Names(t), AuPositions(t.currPos));
    r := Success(Fetched(t, m));
  }

  /** `update_and_fetch_pos` with the corrected step. */
  method UpdateAndFetchPos(f: Functions, s: Planets, units: string := "AU", update: bool := true)
    returns (r: Result<Fetched, SystemError>)
    requires Valid(f, s) && units == "AU"
    ensures r.Failure? <==> s.rates.None?
    ensures r.Success? ==> Stepped(f, s, r.value.system) && Valid(f, r.value.system)
    ensures r.Success? ==>
      r.value.positions == NamedPositions(Names(r.value.system), AuPositions(r.value.system.currPos))
  {
    var stepped := Update(f, s);
    if stepped.Failure? {
      return Failure(stepped.error);
    }
    var t := stepped.value;
    var m := BuildNamedPositions(Names(t), AuPositions(t.currPos));
    r := Success(Fetched(t, m));
  }
}

=== FILE: wrappers.dfy ===
/** Optional values and results with an error, standing in for Python's `None`
    arguments and for the exceptions the source raises. */
module Wrappers {

  /** An argument that may be `None`. */
  datatype Option<+T> = None | Some(value: T)

  /** The outcome of an operation that may raise. */
  datatype Result<+R, +E> = Success(value: R) | Failure(error: E)
}
